=== FILE: README.md ===
# lowdown `library.c` in Dafny

This project models the glue layer of the lowdown markdown converter,
`library.c`. Each part is a pure function with a contract, plus lemmas that
relate the parts to each other.

- **Date normalisers.** `date2str` reads metadata dates and `rcsdate2str` reads RCS dates. Both go through a simplified `sscanf` (module `Scanf`) and print the `%u-%.2u-%.2u` form (module `Dates`).
- **Roff escaper.** `serialise_roff` writes metadata into roff, either as a text line or inside a quoted macro argument (module `Escape`).
- **HTML title escaper.** This is the loop that writes the `<title>` element (module `Escape`).
- **Standalone wrapper.** `lowdown_standalone_open` and `lowdown_standalone_close` (module `Standalone`) write the document preamble and postamble:
  - the last-wins metadata scan, where `date` and `rcsdate` share one slot;
  - the fallback to the current date;
  - the HTML, NROFF and MAN preambles;
  - the HTML-only postamble.
- **Orchestration.** `lowdown_buf` and `lowdown_file` (module `Pipeline`) choose the renderer, configure the parser, decide whether smartypants runs and handle a failed read.
- **Error strings.** `lowdown_errstr` and the public types of `lowdown.h` (module `Lowdown`).

Module `CText` holds the C text primitives:

- NUL-free strings;
- `isspace` and `isdigit` in the C locale;
- decimal spelling;
- lines of text.

A `char` stands for one byte. Module `Nullable` holds the `Option` type, which stands for a C pointer that may be `NULL`.

The collaborators that `library.c` calls but does not define are values of the datatype `Pipeline.Collaborators`:

- the parser and renderer run `hdoc_render`;
- the smartypants filters `hsmrt_html` and `hsmrt_nroff`.

The wall clock becomes the parameter `today`, and reading a `FILE` becomes an `Option` of bytes.

## Model

| member | source | states |
|---|---|---|
| CText.SkipSpace | library.c:181-182 | what is left after skipping whitespace is no longer than the input and is empty or starts with a non-whitespace character |
| CText.SkipSpaceSuffix | library.c:181-182 | skipping whitespace keeps a suffix of the text, drops only whitespace characters, and keeps a C string NUL-free |
| CText.Decimal | library.c:145 | `%u` spells a number with decimal digits, without a leading zero, and the digits read back as the same number |
| CText.ZeroPad2 | library.c:145 | `%.2u` spells a number with at least two digits and never truncates it; the digits read back as the same number |
| Scanf.Scan | library.c:136 | the simplified `sscanf` never assigns more values than the format has `%u` conversions |
| Scanf.ScanSkipsBlanks | library.c:136 | any run of whitespace before a `%u` or a format blank is skipped, so it never changes what is read |
| Scanf.ScanBlankMatchesNone | library.c:136 | a format blank matches no whitespace as well, so it never makes a scan fail |
| Scanf.ScanFill | library.c:136-138 | for a format whose `%u` is never followed by a digit or another `%u`, and whose blank is never followed by a blank or a whitespace character, scanning the text made by filling its fields gives back the values of those fields, whatever non-digit text follows; the date formats are such formats |
| Dates.CanonicalDate | library.c:145 | the printed date is the year, a dash, the padded month, a dash and the padded day; it contains only digits and dashes; it reads back as the same three numbers under `%u-%u-%u`; under `%u/%u/%u` only the year is read |
| Dates.Date2Str | library.c:126-147 | no input gives no date; otherwise a date comes out exactly when the slash form or the dash form reads three fields, and it is made of digits and dashes |
| Dates.Date2StrSlash | library.c:136-145 | `y/m/d` followed by any text that does not start with a digit normalises to the canonical date of `y`, `m` and `d` |
| Dates.Date2StrDash | library.c:136-145 | `y-m-d` fails the slash form, falls through to the dash form and normalises to the canonical date of `y`, `m` and `d` |
| Dates.Date2StrIdempotent | library.c:126-147 | normalising an already-normalised date gives the same date |
| Dates.RcsDate2Str | library.c:149-175 | no input, or input shorter than seven bytes, gives no date; otherwise a date comes out exactly when all six fields are read after the prefix, and it is made of digits and dashes |
| Dates.RcsPrefixIgnored | library.c:159-165 | only the length of the seven-byte RCS prefix matters, never its bytes |
| Dates.RcsDate2StrFields | library.c:164-173 | after the prefix, `y/m/d h:mi:s` gives the canonical date of `y`, `m` and `d`; the time fields must be present but do not change the result |
| Dates.CanonicalDateAsWritten | library.c:145 | the C buffer keeps the whole canonical text when it is shorter than 32 bytes, and exactly its first 31 bytes otherwise |
| Dates.CanonicalDateTruncated | library.c:131 | three ten-digit fields make a 32-byte canonical text, which the 32-byte buffer cuts short |
| Escape.RoffText | library.c:185-193 | the character loop never writes a newline; it writes NUL only if the input has one; in inline mode it writes no `"`; its first byte is the first byte of the first character's mapping |
| Escape.SerialiseRoff | library.c:177-196 | block mode writes exactly one line, which ends in a newline and never starts with `.`; inline mode writes no `"` and no newline |
| Escape.SerialiseRoffDecode | library.c:181-195 | reading the roff escapes back gives the value without its leading whitespace, with each whitespace character as one space and every other character in order, plus the newline in block mode |
| Escape.SerialiseRoffLeadingSpace | library.c:181-182 | the output does not depend on leading whitespace |
| Escape.SerialiseRoffPlain | library.c:181-195 | a value whose characters after leading whitespace are not a backslash, not whitespace and, inline, not `"` is written verbatim: unchanged inline, and in block mode with only the `\&` guard before a leading `.` and the final newline |
| Escape.RoffTextAppend | library.c:185-193 | the loop writes each character independently: the text of `a + b` is the text of `a` followed by the text of `b` |
| Escape.RoffTextEscapes | library.c:186-191 | a backslash is written as `\e`, a double quote in inline mode as `\(dq`, and each whitespace character as exactly one space |
| Escape.SerialiseRoffApostrophe | library.c:183-184 | only a leading `.` is guarded, so the block value `'sp` is written as the line `'sp`, which roff reads as a request |
| Escape.HtmlText | library.c:246-254 | the title loop writes no `<` or `>`; every whitespace character it writes is a space; it writes NUL only if the input has one; it never shortens the text |
| Escape.EscapeHtmlTitle | library.c:244-254 | the escaped title has no `<` or `>` and no whitespace other than spaces; it is empty exactly when the title is all whitespace; it never starts with whitespace |
| Escape.EscapeHtmlTitleDecode | library.c:244-254 | for a title without `&`, decoding the two entities gives the title without its leading whitespace, with each whitespace character as a space |
| Escape.EscapeHtmlTitleAmbiguous | library.c:246-254 | since `&` is copied, the title `&lt;` and the title `<` are escaped to the same text |
| Lowdown.ErrStr | library.c:36-46 | every error message ends with " violation)" |
| Lowdown.ErrStrInjective | library.c:36-39 | two error codes have the same message exactly when they are the same code |
| Standalone.EntryDate | library.c:220-223 | a date-keyed entry yields either no date or text made of digits and dashes |
| Standalone.ScanMeta | library.c:215-223 | after the scan, any date left in the slot is made of digits and dashes |
| Standalone.ScanMetaLastWins | library.c:215-223 | the title comes from the last `title` entry, or is the default when there is none; the author comes from the last `author` entry; the date comes from the last entry keyed `date` or `rcsdate`, even when that entry does not parse |
| Standalone.ScanMetaOtherKey | library.c:215-223 | an entry with any other key can be removed from anywhere in the metadata without changing any slot |
| Standalone.ScanMetaDateOverwrites | library.c:220-223 | a later date-keyed entry sets the date slot to what that entry parses to, so one that does not parse clears it |
| Standalone.ResolvedDate | library.c:227-232 | the current date is used exactly when the scan left no date; otherwise the scanned date itself is used, and it is normalised text |
| Standalone.HtmlOpen | library.c:235-258 | the HTML preamble starts with the document shell and ends at a line boundary |
| Standalone.NroffOpen | library.c:260-267 | the NROFF preamble starts with a macro line and ends at a line boundary |
| Standalone.Byline | library.c:263-266 | the author part is empty exactly when there is no author, and otherwise ends at a line boundary |
| Standalone.ManOpen | library.c:268-272 | the MAN preamble starts with a macro line and ends at a line boundary |
| Standalone.RoffLine | library.c:183-184 | a block-mode title or author line has no newline and never starts with `.` |
| Standalone.StandaloneOpen | library.c:198-280 | every preamble ends at a line boundary; the HTML one starts with the document shell; the roff ones start with a macro line |
| Standalone.StandaloneClose | library.c:282-303 | there is a postamble exactly for HTML, and it ends at a line boundary |
| Standalone.NroffOpenLines | library.c:260-267 | the NROFF preamble is the lines `.DA <date>`, `.TL` and the title, then `.AU` and the author exactly when there is an author |
| Standalone.ManOpenLines | library.c:268-272 | the MAN preamble is the single `.TH` line |
| Standalone.HtmlOpenLines | library.c:235-258 | the HTML preamble is the five shell lines, the escaped title inside `<title>` on its own line, `</head>` and `<body>` |
| Standalone.HtmlCloseLines | library.c:290-293 | the HTML postamble is the lines `</body>` and `</html>` |
| Standalone.StandaloneOpenLines | library.c:227-272 | for each output type, the lines of the whole preamble in terms of the scanned title, author and resolved date |
| Standalone.HtmlOpenIgnoresDate | library.c:234-259 | the HTML preamble depends only on the title: it reads neither the author nor the date, and never the clock |
| Standalone.NroffOpenDateInjective | library.c:261 | two NROFF preambles with the same title and author are equal exactly when their dates are |
| Standalone.ManOpenDateInjective | library.c:271 | two MAN preambles with the same title are equal exactly when their dates are |
| Standalone.RoffOpenUsesClockIffNoDate | library.c:227-232 | a roff preamble changes with the clock exactly when the metadata gives no usable date |
| Standalone.StandaloneWrapLines | library.c:290-296 | wrapping a body that ends at a line boundary gives the preamble's lines, then the body's, then the postamble's |
| Pipeline.ChooseRenderer | library.c:65-69 | the HTML renderer is chosen exactly when there are no options or they ask for HTML, with no output flags when there are no options; the roff renderer is in man mode exactly when man is asked for |
| Pipeline.Configure | library.c:65-75 | the parser gets the renderer `ChooseRenderer` builds, with its output flags and man bit, the options as given, no feature flags without options, nesting depth 16, and roff-safe parsing exactly when the roff renderer was chosen |
| Pipeline.ConfigureDefaults | library.c:65-75 | absent options configure the parser as HTML options without flags or features would, except that no options are passed on |
| Pipeline.LowdownBuf | library.c:88-104 | the result is the rendered body unless options set the smartypants bit; then it is the output of the filter for that output type; the metadata is always the parser's |
| Pipeline.SmartyMatchesRenderer | library.c:65-69 | when smartypants runs, its variant matches the renderer that was chosen |
| Pipeline.SmartyOffIgnoresFilters | library.c:88-104 | without the smartypants bit the result does not depend on the smartypants filters |
| Pipeline.LowdownFile | library.c:107-124 | there is a result exactly when the read succeeded, and it is what `lowdown_buf` makes of the bytes read |

## Left out

- The wall clock: `time`, `localtime` and `strftime("%F")` become the parameter `today`. The model does not check that it is a date.
- Reading the input file: `hbuf_putf` becomes an `Option` of the bytes read. `None` stands for a read error.
- The parser, renderers and smartypants filters: `hdoc_*`, `hrend_*` and `hsmrt_*` are not part of this model. They are function values in `Pipeline.Collaborators`.
- The HTML renderer's second argument, the constant `0`, is not recorded in `Pipeline.Renderer`.
- Buffer management is not modelled:
  - `hbuf` growth and the `DEF_IUNIT`/`DEF_OUNIT` sizes;
  - the ownership hand-off through `data = NULL`;
  - the freeing of resources;
  - the `warnx` diagnostics.
- Scanf.Scan: the model covers only `%u`, ordinary characters and blanks. It differs from C `sscanf` in two ways:
  - a `%u` field is a run of digits read as an unbounded natural number, so signs and 32-bit wrap-around are not modelled;
  - the `EOF` return is not told apart from a short count, since the callers only compare the count with 3 or 6.
- Dates.Date2Str: returns the corrected canonical date, not the text `date2str` leaves in its 32-byte static buffer. `snprintf` keeps exactly the first 31 bytes of a longer text, so a date whose canonical text is 32 bytes or longer is cut short in C but not here. `Dates.CanonicalDateAsWritten` models the buffer, and the truncation is the row under "## Findings". That the buffer is static and reused between calls is not modelled either.
- Dates.RcsDate2Str: returns the corrected canonical date, not the at most 31 bytes `rcsdate2str` keeps in its 32-byte static buffer, for the same reason and with the same references as Dates.Date2Str.
- Lowdown.ErrStr: codes outside the message table are undefined behaviour in C and are excluded by a precondition.
- Standalone.StandaloneOpen: takes options rather than an optional pointer, because the C code dereferences `opts` unconditionally. The same holds for Standalone.StandaloneClose.
- Escape.EscapeHtmlTitleDecode: holds only for titles without `&`. The C loop copies `&` unescaped, so a title that already spells an entity cannot be told apart from the character it stands for (see Escape.EscapeHtmlTitleAmbiguous). This is kept as the C code behaves.
- Characters stand for bytes. There is no encoding, and `isspace`/`isdigit` are those of the C locale.

## Findings

| source | as written | input that shows it | evidently intended | confidence | as-written member | corrected member |
|---|---|---|---|---|---|---|
| library.c:131-145 | `snprintf` prints `%u-%.2u-%.2u` into a 32-byte buffer, which holds at most 31 characters, so a longer date is silently cut short (rcsdate2str, library.c:154-173, does the same) | the metadata date `1000000000/1000000000/1000000000`; every field fits a 32-bit `%u`, and the date prints as 32 characters, of which 31 are kept | the printed date reads back as the three numbers that were parsed | high for the arithmetic; not executed | Dates.CanonicalDateAsWritten, Dates.CanonicalDateTruncated | Dates.CanonicalDate |

=== FILE: ctext.dfy ===
/**
  C text primitives shared by the date normalisers and the escapers: NUL-free
  strings, the `isspace`/`isdigit` classes of the C locale, and the decimal
  conversions behind `%u` and `%.2u`.  A `char` stands for one byte; no
  encoding is modelled.
 */
module CText {

  /** A C string: a NUL byte would terminate it, so none occurs inside. */
  type CString = s: string | '\0' !in s

  /** `isspace` in the C locale: space, tab, newline, vertical tab, form feed, carriage return. */
  predicate IsSpace(c: char) {
    c == ' ' || c == '\t' || c == '\n' || c == '\U{B}' || c == '\U{C}' || c == '\r'
  }

  /** `isdigit`. */
  predicate IsDigit(c: char) {
    '0' <= c <= '9'
  }

  predicate IsDigits(s: string) {
    forall i :: 0 <= i < |s| ==> IsDigit(s[i])
  }

  /** The loop `while (isspace(*v)) v++`: drops the longest whitespace prefix. */
  function SkipSpace(s: string): (r: string)
    ensures |r| <= |s|
    ensures r == [] || !IsSpace(r[0])
  {
    if s != [] && IsSpace(s[0]) then SkipSpace(s[1..]) else s
  }

  /** SkipSpace keeps a suffix and drops only whitespace in front of it. */
  lemma {:induction false} SkipSpaceSuffix(s: string)
    ensures var r := SkipSpace(s); r == s[|s| - |r|..]
    ensures var r := SkipSpace(s); forall i :: 0 <= i < |s| - |r| ==> IsSpace(s[i])
    ensures '\0' !in s ==> '\0' !in SkipSpace(s)
    decreases |s|
  {
    if s != [] && IsSpace(s[0]) {
      SkipSpaceSuffix(s[1..]);
      var r := SkipSpace(s);
      assert s[1..][|s| - 1 - |r|..] == s[|s| - |r|..];
    }
  }

  /** A string whose first character is not whitespace is left alone by SkipSpace. */
  lemma SkipSpaceNoop(s: string)
    requires s == [] || !IsSpace(s[0])
    ensures SkipSpace(s) == s
  {
  }

  /** Text made of whitespace only. */
  predicate AllSpace(w: string) {
    forall i :: 0 <= i < |w| ==> IsSpace(w[i])
  }

  /** Any run of whitespace in front of a text is skipped entirely. */
  lemma {:induction false} SkipSpacePrefix(w: string, s: string)
    requires AllSpace(w)
    ensures SkipSpace(w + s) == SkipSpace(s)
    decreases |w|
  {
    if w != [] {
      assert IsSpace((w + s)[0]);
      assert (w + s)[1..] == w[1..] + s;
      SkipSpacePrefix(w[1..], s);
    } else {
      assert w + s == s;
    }
  }

  /** Every whitespace character replaced by one space, everything else kept. */
  function Blank(c: char): char {
    if IsSpace(c) then ' ' else c
  }

  function Blanked(s: string): (r: string)
    ensures |r| == |s|
    ensures forall i :: 0 <= i < |s| ==> r[i] == Blank(s[i])
  {
    if s == [] then [] else [Blank(s[0])] + Blanked(s[1..])
  }

  function DigitChar(d: nat): (c: char)
    requires d < 10
    ensures IsDigit(c)
  {
    ('0' as int + d) as char
  }

  function DigitValue(c: char): (d: nat)
    requires IsDigit(c)
    ensures d < 10
  {
    c as int - '0' as int
  }

  /** The number a run of decimal digits denotes (leading zeros allowed, as `%u` reads them). */
  function DigitsValue(s: string): nat
    requires IsDigits(s)
  {
    if s == [] then 0 else DigitsValue(s[..|s| - 1]) * 10 + DigitValue(s[|s| - 1])
  }

  /** `%u`: the shortest decimal spelling of `n`. */
  function Decimal(n: nat): (r: string)
    ensures |r| > 0 && IsDigits(r)
    ensures DigitsValue(r) == n
    ensures |r| > 1 ==> r[0] != '0'
    ensures n < 10 <==> |r| == 1
  {
    if n < 10 then [DigitChar(n)]
    else
      var p := Decimal(n / 10);
      var r := p + [DigitChar(n % 10)];
      assert r[..|r| - 1] == p;
      r
  }

  /** `%.2u`: the decimal spelling of `n` padded with zeros to at least two digits, never truncated. */
  function ZeroPad2(n: nat): (r: string)
    ensures IsDigits(r) && DigitsValue(r) == n
    ensures |r| == if n < 10 then 2 else |Decimal(n)|
  {
    if n < 10 then
      var r := "0" + Decimal(n);
      assert r[..1] == "0";
      r
    else Decimal(n)
  }

  /** A text line: the line followed by its newline. */
  function Line(s: string): (r: string)
    ensures |r| == |s| + 1 && r[|s|] == '\n' && r[..|s|] == s
  {
    s + "\n"
  }

  /** Index of the first newline; the whole length when there is none. */
  function LineEnd(s: string): (i: nat)
    ensures i <= |s|
  {
    if s == [] || s[0] == '\n' then 0 else 1 + LineEnd(s[1..])
  }

  /** The lines of a text; a final line without a newline still counts. */
  function SplitLines(s: string): seq<string>
    decreases |s|
  {
    if s == [] then []
    else
      var i := LineEnd(s);
      if i == |s| then [s] else [s[..i]] + SplitLines(s[i + 1..])
  }

  /** Lines written one after the other, each followed by its newline. */
  function Lines(ls: seq<string>): (r: string)
    ensures r == [] || r[|r| - 1] == '\n'
  {
    if ls == [] then [] else Lines(ls[..|ls| - 1]) + Line(ls[|ls| - 1])
  }

  predicate NoNewlines(ls: seq<string>) {
    forall i :: 0 <= i < |ls| ==> '\n' !in ls[i]
  }

  /** Splitting newline-free lines written one after the other gives back exactly those lines. */
  lemma {:induction false} SplitLinesOfLines(ls: seq<string>)
    requires NoNewlines(ls)
    ensures SplitLines(Lines(ls)) == ls
    decreases |ls|
  {
    if ls != [] {
      var init := ls[..|ls| - 1];
      SplitLinesOfLines(init);
      SplitLinesSnoc(Lines(init), ls[|ls| - 1]);
      assert init + [ls[|ls| - 1]] == ls;
    }
  }

  /** Writing two runs of lines one after the other writes all of their lines. */
  lemma {:induction false} LinesAppend(a: seq<string>, b: seq<string>)
    ensures Lines(a + b) == Lines(a) + Lines(b)
    decreases |b|
  {
    if b == [] {
      assert a + b == a;
    } else {
      var init := b[..|b| - 1];
      LinesAppend(a, init);
      assert (a + b)[..|a + b| - 1] == a + init;
      assert (a + b)[|a + b| - 1] == b[|b| - 1];
      SeqAssoc(Lines(a), Lines(init), Line(b[|b| - 1]));
    }
  }

  lemma LinesOne(x: string)
    ensures Lines([x]) == Line(x)
  {
    assert [x][..0] == [];
  }

  lemma LinesTwo(x: string, y: string)
    ensures Lines([x, y]) == Line(x) + Line(y)
  {
    assert [x, y][..1] == [x];
    LinesOne(x);
  }

  lemma LinesThree(x: string, y: string, z: string)
    ensures Lines([x, y, z]) == Line(x) + Line(y) + Line(z)
  {
    assert [x, y, z][..2] == [x, y];
    LinesTwo(x, y);
  }

  lemma LinesSnoc3(ls: seq<string>, x: string, y: string, z: string)
    ensures Lines(ls + [x, y, z]) == Lines(ls) + Line(x) + Line(y) + Line(z)
  {
    var l3 := ls + [x, y, z];
    var l2 := ls + [x, y];
    var l1 := ls + [x];
    assert l3[..|l3| - 1] == l2 && l3[|l3| - 1] == z;
    assert l2[..|l2| - 1] == l1 && l2[|l2| - 1] == y;
    assert l1[..|l1| - 1] == ls && l1[|l1| - 1] == x;
    assert Lines(l3) == Lines(l2) + Line(z);
    assert Lines(l2) == Lines(l1) + Line(y);
    assert Lines(l1) == Lines(ls) + Line(x);
  }

  /** One newline-free line splits to itself. */
  lemma SplitLinesOne(x: string)
    requires '\n' !in x
    ensures SplitLines(Line(x)) == [x]
  {
    LinesOne(x);
    SplitLinesOfLines([x]);
  }

  /** Newline-free lines followed by three more split into all of them. */
  lemma SplitLinesThenThree(ls: seq<string>, x: string, y: string, z: string)
    requires NoNewlines(ls) && '\n' !in x && '\n' !in y && '\n' !in z
    ensures SplitLines(Lines(ls) + Line(x) + Line(y) + Line(z)) == ls + [x, y, z]
  {
    LinesSnoc3(ls, x, y, z);
    assert NoNewlines(ls + [x, y, z]);
    SplitLinesOfLines(ls + [x, y, z]);
  }

  /** Three newline-free lines followed by newline-free lines split into all of them. */
  lemma SplitLinesThreeThen(x: string, y: string, z: string, ls: seq<string>)
    requires '\n' !in x && '\n' !in y && '\n' !in z && NoNewlines(ls)
    ensures SplitLines(Line(x) + Line(y) + Line(z) + Lines(ls)) == [x, y, z] + ls
  {
    LinesThree(x, y, z);
    LinesAppend([x, y, z], ls);
    NoNewlinesAppend([x, y, z], ls);
    SplitLinesOfLines([x, y, z] + ls);
  }

  /** Three pieces of which the first two end at a line boundary split piece by piece. */
  lemma SplitLinesAppend3(a: string, b: string, c: string)
    requires |a| > 0 && a[|a| - 1] == '\n'
    requires b == [] || b[|b| - 1] == '\n'
    ensures SplitLines(a + b + c) == SplitLines(a) + SplitLines(b) + SplitLines(c)
  {
    SplitLinesAppend(a, b);
    var ab := a + b;
    assert ab[|ab| - 1] == '\n';
    SplitLinesAppend(ab, c);
  }

  // Proof helpers.

  lemma NoNewlineJoin(a: string, b: string)
    requires '\n' !in a && '\n' !in b
    ensures '\n' !in a + b
  {
  }

  lemma NoNewlinesAppend(a: seq<string>, b: seq<string>)
    requires NoNewlines(a) && NoNewlines(b)
    ensures NoNewlines(a + b)
  {
    forall i | 0 <= i < |a + b| ensures '\n' !in (a + b)[i] {
      if i < |a| { assert (a + b)[i] == a[i]; } else { assert (a + b)[i] == b[i - |a|]; }
    }
  }

  lemma {:induction false} LineEndAt(s: string, i: nat)
    requires i < |s| && s[i] == '\n'
    requires forall j :: 0 <= j < i ==> s[j] != '\n'
    ensures LineEnd(s) == i
    decreases i
  {
    if i > 0 {
      LineEndAt(s[1..], i - 1);
    }
  }

  /** Splitting after a newline-free line peels off exactly that line. */
  lemma SplitLinesCons(line: string, rest: string)
    requires '\n' !in line
    ensures SplitLines(Line(line) + rest) == [line] + SplitLines(rest)
  {
    var s := Line(line) + rest;
    assert forall j :: 0 <= j < |line| ==> s[j] == line[j];
    LineEndAt(s, |line|);
    assert s[..|line|] == line;
    assert s[|line| + 1..] == rest;
  }

  lemma SplitLinesSnoc(prefix: string, line: string)
    requires prefix == [] || prefix[|prefix| - 1] == '\n'
    requires '\n' !in line
    ensures SplitLines(prefix + Line(line)) == SplitLines(prefix) + [line]
  {
    SplitLinesCons(line, []);
    assert Line(line) + [] == Line(line);
    SplitLinesAppend(prefix, Line(line));
  }

  lemma {:induction false} SplitLinesAppend(a: string, b: string)
    requires a == [] || a[|a| - 1] == '\n'
    ensures SplitLines(a + b) == SplitLines(a) + SplitLines(b)
    decreases |a|
  {
    if a == [] {
      assert a + b == b;
      assert SplitLines(a) == [];
      assert SplitLines(a) + SplitLines(b) == SplitLines(b);
    } else {
      var i := FirstNewline(a);
      SplitLinesAt(a, b, i);
      SplitLinesAt(a, [], i);
      assert a + [] == a && a[i + 1..] + [] == a[i + 1..];
      SplitLinesAppend(a[i + 1..], b);
      SeqAssoc([a[..i]], SplitLines(a[i + 1..]), SplitLines(b));
    }
  }

  /** Text whose first newline is at `i` splits there, whatever follows it. */
  lemma SplitLinesAt(a: string, b: string, i: nat)
    requires i < |a| && a[i] == '\n'
    requires forall j :: 0 <= j < i ==> a[j] != '\n'
    ensures SplitLines(a + b) == [a[..i]] + SplitLines(a[i + 1..] + b)
  {
    var s := a + b;
    assert forall j :: 0 <= j < i ==> s[j] == a[j];
    LineEndAt(s, i);
    assert s[..i] == a[..i];
    assert s[i + 1..] == a[i + 1..] + b;
  }

  /** The first newline of a text that contains one. */
  lemma {:induction false} FirstNewline(s: string) returns (i: nat)
    requires '\n' in s
    ensures i < |s| && s[i] == '\n'
    ensures forall j :: 0 <= j < i ==> s[j] != '\n'
    decreases |s|
  {
    if s[0] == '\n' {
      i := 0;
    } else {
      assert '\n' in s[1..] by {
        var k :| 0 <= k < |s| && s[k] == '\n';
        assert s[1..][k - 1] == '\n';
      }
      var k := FirstNewline(s[1..]);
      i := k + 1;
      assert forall j :: 1 <= j < i ==> s[j] == s[1..][j - 1];
    }
  }

  lemma SeqAssoc<T>(x: seq<T>, y: seq<T>, z: seq<T>)
    ensures x + (y + z) == x + y + z
  {
  }
}

=== FILE: dates.dfy ===
/**
  The metadata date normalisers of library.c: `date2str` accepts
  `y/m/d` and then `y-m-d`; `rcsdate2str` skips a fixed seven-byte RCS
  keyword prefix and reads `y/m/d h:m:s`.  Both print `%u-%.2u-%.2u` and
  give no value (the C NULL) on failure.
 */
module Dates {
  import opened Nullable
  import opened CText
  import opened Scanf

  /** The format `"%u<sep>%u<sep>%u"`. */
  function Triple(sep: char): seq<Directive> {
    [Unsigned, Literal(sep), Unsigned, Literal(sep), Unsigned]
  }

  /** The format `"%u/%u/%u"`. */
  const SlashDate: seq<Directive> := Triple('/')

  /** The format `"%u-%u-%u"`. */
  const DashDate: seq<Directive> := Triple('-')

  /** The format `"%u/%u/%u %u:%u:%u"`. */
  const RcsDate: seq<Directive> := Triple('/') + [Whitespace] + Triple(':')

  /** Length of the RCS keyword prefix (such as `"$Date: "`) that is skipped unread. */
  const RcsPrefixLength: nat := 7

  /** Text made of decimal digits and dashes only, as every normalised date is. */
  predicate IsDateText(s: string) {
    forall i :: 0 <= i < |s| ==> IsDigit(s[i]) || s[i] == '-'
  }

  /**
    `"%u-%.2u-%.2u"`: the year unpadded, month and day zero-padded to at
    least two digits; printing is the dash format filled with those
    spellings.  The text is made of digits and dashes only, reads back as
    the same three numbers under `"%u-%u-%u"`, and stops after the year
    under `"%u/%u/%u"`.
   */
  function CanonicalDate(y: nat, m: nat, d: nat): (r: CString)
    ensures r == Decimal(y) + "-" + ZeroPad2(m) + "-" + ZeroPad2(d)
    ensures IsDateText(r)
    ensures Scan(r, DashDate) == [y, m, d]
    ensures Scan(r, SlashDate) == [y]
  {
    CanonicalDateFacts(Decimal(y), ZeroPad2(m), ZeroPad2(d));
    Fill(DashDate, [Decimal(y), ZeroPad2(m), ZeroPad2(d)])
  }

  /**
    `date2str`: slash form first, dash form only when the slash form does
    not give three fields.  The result is the corrected, untruncated
    canonical date; the C code's 32-byte buffer, which cuts a longer date
    short, is `CanonicalDateAsWritten`.
   */
  function Date2Str(v: Option<CString>): (r: Option<CString>)
    ensures v.None? ==> r.None?
    ensures v.Some? ==>
      (r.Some? <==> |Scan(v.value, SlashDate)| == 3 || |Scan(v.value, DashDate)| == 3)
    ensures r.Some? ==> IsDateText(r.value)
  {
    match v
    case None => None
    case Some(s) =>
      var slash := Scan(s, SlashDate);
      if |slash| == 3 then Some(CanonicalDate(slash[0], slash[1], slash[2]))
      else
        var dash := Scan(s, DashDate);
        if |dash| == 3 then Some(CanonicalDate(dash[0], dash[1], dash[2]))
        else None
  }

  /**
    `rcsdate2str`: skip the seven-byte prefix, then all six fields must be
    read; only the date is kept.  Like `Date2Str`, it returns the
    untruncated canonical date rather than the 31 bytes the C buffer keeps.
   */
  function RcsDate2Str(v: Option<CString>): (r: Option<CString>)
    ensures v.None? ==> r.None?
    ensures v.Some? && |v.value| < RcsPrefixLength ==> r.None?
    ensures v.Some? && |v.value| >= RcsPrefixLength ==>
      (r.Some? <==> |Scan(v.value[RcsPrefixLength..], RcsDate)| == 6)
    ensures r.Some? ==> IsDateText(r.value)
  {
    match v
    case None => None
    case Some(s) =>
      if |s| < RcsPrefixLength then None
      else
        var f := Scan(s[RcsPrefixLength..], RcsDate);
        if |f| == 6 then Some(CanonicalDate(f[0], f[1], f[2])) else None
  }

  /** `y/m/d`, with any trailing text not starting with a digit, normalises to the canonical date. */
  lemma Date2StrSlash(v: CString, y: string, m: string, d: string, tail: string)
    requires IsField(y) && IsField(m) && IsField(d)
    requires tail == [] || !IsDigit(tail[0])
    requires v == y + "/" + m + "/" + d + tail
    ensures Date2Str(Some(v)) == Some(CanonicalDate(DigitsValue(y), DigitsValue(m), DigitsValue(d)))
  {
    FillTriple('/', y, m, d);
    assert v == Fill(SlashDate, [y, m, d]) + tail;
    ScanTriple('/', [y, m, d], tail);
  }

  /** `y-m-d` falls through the slash form and normalises to the canonical date. */
  lemma Date2StrDash(v: CString, y: string, m: string, d: string, tail: string)
    requires IsField(y) && IsField(m) && IsField(d)
    requires tail == [] || !IsDigit(tail[0])
    requires v == y + "-" + m + "-" + d + tail
    ensures Date2Str(Some(v)) == Some(CanonicalDate(DigitsValue(y), DigitsValue(m), DigitsValue(d)))
  {
    var fields := [y, m, d];
    FillTriple('-', y, m, d);
    assert v == Fill(DashDate, fields) + tail;
    ScanTriple('-', fields, tail);
    ScanOtherSeparator('/', '-', fields, tail);
    assert |Scan(v, SlashDate)| == 1;
    assert Scan(v, DashDate) == [DigitsValue(y), DigitsValue(m), DigitsValue(d)];
    Date2StrFallsThrough(v);
  }

  /** Normalising a normalised date changes nothing. */
  lemma Date2StrIdempotent(v: Option<CString>)
    ensures Date2Str(v).Some? ==> Date2Str(Date2Str(v)) == Date2Str(v)
  {
  }

  /** Only the length of the RCS prefix matters, never its bytes. */
  lemma RcsPrefixIgnored(p: CString, q: CString, rest: CString)
    requires |p| == RcsPrefixLength && |q| == RcsPrefixLength
    ensures RcsDate2Str(Some(p + rest)) == RcsDate2Str(Some(q + rest))
  {
    assert (p + rest)[RcsPrefixLength..] == rest;
    assert (q + rest)[RcsPrefixLength..] == rest;
  }

  /**
    When the text after the seven-byte prefix is `y/m/d h:mi:s`, the result
    is the canonical date of `y`, `m`, `d`: the time fields must be present
    but have no effect, and the prefix is never looked at.
   */
  lemma RcsDate2StrFields(v: CString, y: string, m: string, d: string,
                          h: string, mi: string, s: string, tail: string)
    requires IsField(y) && IsField(m) && IsField(d) && IsField(h) && IsField(mi) && IsField(s)
    requires tail == [] || !IsDigit(tail[0])
    requires |v| >= RcsPrefixLength
    requires v[RcsPrefixLength..] == y + "/" + m + "/" + d + " " + h + ":" + mi + ":" + s + tail
    ensures RcsDate2Str(Some(v)) == Some(CanonicalDate(DigitsValue(y), DigitsValue(m), DigitsValue(d)))
  {
    ScanRcsDate(v[RcsPrefixLength..], y, m, d, h, mi, s, tail);
    RcsDate2StrOfFields(v, DigitsValue(y), DigitsValue(m), DigitsValue(d),
                        [DigitsValue(h), DigitsValue(mi), DigitsValue(s)]);
  }

  /** Size of the static buffer `snprintf` prints the normalised date into, terminator included. */
  const DateBufferSize: nat := 32

  /**
    The normalised date as the C code actually stores it: `snprintf` into
    the 32-byte buffer keeps at most 31 bytes of the canonical text, so a
    longer text is cut short without any error.
   */
  function CanonicalDateAsWritten(y: nat, m: nat, d: nat): (r: CString)
    ensures |r| < DateBufferSize
    ensures r <= CanonicalDate(y, m, d)
    ensures |CanonicalDate(y, m, d)| < DateBufferSize ==> r == CanonicalDate(y, m, d)
    ensures |CanonicalDate(y, m, d)| >= DateBufferSize ==> |r| == DateBufferSize - 1
  {
    var full := CanonicalDate(y, m, d);
    if |full| < DateBufferSize then full else full[..DateBufferSize - 1]
  }

  /**
    Three ten-digit fields, each within the range of a 32-bit `%u`, make a
    32-byte canonical text, which the buffer truncates: the stored date is
    not the date that was read.
   */
  lemma CanonicalDateTruncated()
    ensures |CanonicalDate(1000000000, 1000000000, 1000000000)| == 32
    ensures CanonicalDateAsWritten(1000000000, 1000000000, 1000000000) != CanonicalDate(1000000000, 1000000000, 1000000000)
  {
    var n := 1000000000;
    DecimalLength(n, 9);
    assert |ZeroPad2(n)| == 10;
  }

  // Proof helpers.

  function Pow10(k: nat): (r: nat)
    ensures r >= 1
  {
    if k == 0 then 1 else 10 * Pow10(k - 1)
  }

  /** A number with k + 1 decimal digits is spelled with k + 1 characters. */
  lemma {:induction false} DecimalLength(n: nat, k: nat)
    requires Pow10(k) <= n < Pow10(k + 1)
    ensures |Decimal(n)| == k + 1
  {
    if k > 0 {
      assert Pow10(k) == 10 * Pow10(k - 1);
      assert Pow10(k + 1) == 10 * Pow10(k);
      assert Pow10(k - 1) <= n / 10 < Pow10(k);
      DecimalLength(n / 10, k - 1);
    }
  }

  lemma ScanRcsDate(t: string, y: string, m: string, d: string,
                     h: string, mi: string, s: string, tail: string)
    requires IsField(y) && IsField(m) && IsField(d) && IsField(h) && IsField(mi) && IsField(s)
    requires tail == [] || !IsDigit(tail[0])
    requires t == y + "/" + m + "/" + d + " " + h + ":" + mi + ":" + s + tail
    ensures Scan(t, RcsDate) ==
      [DigitsValue(y), DigitsValue(m), DigitsValue(d)] + [DigitsValue(h), DigitsValue(mi), DigitsValue(s)]
  {
    var fields := [y, m, d] + [h, mi, s];
    RcsDateShape();
    RcsFields(y, m, d, h, mi, s);
    FillRcsDate(y, m, d, h, mi, s);
    assert t == Fill(RcsDate, fields) + tail;
    ScanFill(RcsDate, fields, tail);
  }

  lemma RcsDate2StrOfFields(v: CString, y: nat, m: nat, d: nat, time: seq<nat>)
    requires |v| >= RcsPrefixLength && |time| == 3
    requires Scan(v[RcsPrefixLength..], RcsDate) == [y, m, d] + time
    ensures RcsDate2Str(Some(v)) == Some(CanonicalDate(y, m, d))
  {
  }

  lemma DateTextAppend(a: string, b: string)
    requires IsDateText(a) && IsDateText(b)
    ensures IsDateText(a + b)
  {
    forall i | 0 <= i < |a + b| ensures IsDigit((a + b)[i]) || (a + b)[i] == '-' {
      if i < |a| {
        assert (a + b)[i] == a[i];
      } else {
        assert (a + b)[i] == b[i - |a|];
      }
    }
  }

  lemma CanonicalDateShape(ys: string, ms: string, ds: string)
    requires IsDigits(ys) && IsDigits(ms) && IsDigits(ds)
    ensures IsDateText(ys + "-" + ms + "-" + ds)
    ensures '\0' !in ys + "-" + ms + "-" + ds
  {
    DateTextAppend(ys, "-");
    DateTextAppend(ys + "-", ms);
    DateTextAppend(ys + "-" + ms, "-");
    DateTextAppend(ys + "-" + ms + "-", ds);
  }

  lemma CanonicalDateFacts(ys: string, ms: string, ds: string)
    requires IsField(ys) && IsField(ms) && IsField(ds)
    ensures Conversions(DashDate) == 3
    ensures Fill(DashDate, [ys, ms, ds]) == ys + "-" + ms + "-" + ds
    ensures IsDateText(Fill(DashDate, [ys, ms, ds]))
    ensures '\0' !in Fill(DashDate, [ys, ms, ds])
    ensures Scan(Fill(DashDate, [ys, ms, ds]), DashDate) == [DigitsValue(ys), DigitsValue(ms), DigitsValue(ds)]
    ensures Scan(Fill(DashDate, [ys, ms, ds]), SlashDate) == [DigitsValue(ys)]
  {
    var fields := [ys, ms, ds];
    FillTriple('-', ys, ms, ds);
    CanonicalDateShape(ys, ms, ds);
    assert Fill(DashDate, fields) + "" == Fill(DashDate, fields);
    ScanTriple('-', fields, "");
    ScanOtherSeparator('/', '-', fields, "");
  }

  lemma TripleShape(sep: char)
    requires !IsDigit(sep) && !IsSpace(sep)
    ensures Separated(Triple(sep)) && Conversions(Triple(sep)) == 3
  {
    var f4: seq<Directive> := [Unsigned];
    var f3 := [Literal(sep)] + f4;
    var f2 := [Unsigned] + f3;
    var f1 := [Literal(sep)] + f2;
    var fmt := [Unsigned] + f1;
    assert fmt == Triple(sep);
    assert fmt[1..] == f1 && f1[1..] == f2 && f2[1..] == f3 && f3[1..] == f4 && f4[1..] == [];
    assert Separated(f4) && Separated(f3) && Separated(f2) && Separated(f1) && Separated(fmt);
    assert Conversions(f4) == 1 && Conversions(f3) == 1 && Conversions(f2) == 2;
    assert Conversions(f1) == 2 && Conversions(fmt) == 3;
  }

  lemma FieldsTriple(y: string, m: string, d: string)
    requires IsField(y) && IsField(m) && IsField(d)
    ensures Fields([y, m, d])
    ensures Values([y, m, d]) == [DigitsValue(y), DigitsValue(m), DigitsValue(d)]
  {
    assert [y, m, d][1..] == [m, d] && [m, d][1..] == [d] && [d][1..] == [];
    assert Values([d]) == [DigitsValue(d)];
    assert Values([m, d]) == [DigitsValue(m), DigitsValue(d)];
  }

  lemma Date2StrFallsThrough(v: CString)
    requires |Scan(v, SlashDate)| != 3 && |Scan(v, DashDate)| == 3
    ensures var dash := Scan(v, DashDate); Date2Str(Some(v)) == Some(CanonicalDate(dash[0], dash[1], dash[2]))
  {
  }

  /** Filling a date format spells out the three fields around the separator. */
  lemma FillTriple(sep: char, y: string, m: string, d: string)
    ensures Conversions(Triple(sep)) == 3
    ensures Fill(Triple(sep), [y, m, d]) == y + [sep] + m + [sep] + d
  {
    var f4: seq<Directive> := [Unsigned];
    var f3 := [Literal(sep)] + f4;
    var f2 := [Unsigned] + f3;
    var f1 := [Literal(sep)] + f2;
    var fmt := [Unsigned] + f1;
    assert fmt == Triple(sep);
    assert fmt[1..] == f1 && f1[1..] == f2 && f2[1..] == f3 && f3[1..] == f4 && f4[1..] == [];
    assert [y, m, d][1..] == [m, d] && [m, d][1..] == [d] && [d][1..] == [];
    assert Conversions(f4) == 1 && Conversions(f3) == 1;
    assert Conversions(f2) == 2 && Conversions(f1) == 2;
    assert Fill(f4, [d]) == d;
    assert Fill(f3, [d]) == [sep] + d;
    assert Fill(f2, [m, d]) == m + [sep] + d;
    assert Fill(f1, [m, d]) == [sep] + m + [sep] + d;
  }

  /** Three filled fields read back under the same date format. */
  lemma ScanTriple(sep: char, fields: seq<string>, tail: string)
    requires !IsDigit(sep) && !IsSpace(sep)
    requires |fields| == 3 && Fields(fields)
    requires tail == [] || !IsDigit(tail[0])
    ensures Conversions(Triple(sep)) == 3
    ensures Scan(Fill(Triple(sep), fields) + tail, Triple(sep)) ==
      [DigitsValue(fields[0]), DigitsValue(fields[1]), DigitsValue(fields[2])]
  {
    TripleShape(sep);
    FieldsTriple(fields[0], fields[1], fields[2]);
    assert fields == [fields[0], fields[1], fields[2]];
    ScanFill(Triple(sep), fields, tail);
  }

  /** Text printed with one separator and scanned with another yields only its first field. */
  lemma ScanOtherSeparator(sep: char, used: char, fields: seq<string>, tail: string)
    requires sep != used && !IsDigit(used) && !IsSpace(used)
    requires |fields| == 3 && Fields(fields)
    ensures Conversions(Triple(used)) == 3
    ensures Scan(Fill(Triple(used), fields) + tail, Triple(sep)) == [DigitsValue(fields[0])]
  {
    TripleShape(used);
    var fmt := Triple(used);
    var rest := Fill(fmt[1..], fields[1..]) + tail;
    assert Fill(fmt, fields) + tail == fields[0] + rest;
    FillHead(fmt[1..], fields[1..], tail);
    var scan := Triple(sep);
    ScanField(fields[0], rest, scan);
    assert scan[1..][0] == Literal(sep);
  }

  lemma RcsDateShape()
    ensures Separated(RcsDate) && Conversions(RcsDate) == 6
  {
    TripleShape('/');
    TripleShape(':');
    var date := Triple('/');
    var time := Triple(':');
    var blank: seq<Directive> := [Whitespace];
    assert Separated(blank) && Conversions(blank) == 0;
    assert date[|date| - 1] == Unsigned && time[0] == Unsigned;
    SeparatedAppend(date, blank);
    ConversionsAppend(date, blank);
    var head := date + blank;
    assert head[|head| - 1] == Whitespace;
    SeparatedAppend(head, time);
    ConversionsAppend(head, time);
  }

  /** Filling the RCS format spells out `y/m/d h:mi:s`. */
  lemma FillRcsDate(y: string, m: string, d: string, h: string, mi: string, s: string)
    ensures Conversions(RcsDate) == |[y, m, d] + [h, mi, s]|
    ensures Fill(RcsDate, [y, m, d] + [h, mi, s]) == y + "/" + m + "/" + d + " " + h + ":" + mi + ":" + s
  {
    FillTriple('/', y, m, d);
    FillTriple(':', h, mi, s);
    var date := Triple('/');
    var time := Triple(':');
    var blank: seq<Directive> := [Whitespace];
    assert Conversions(blank) == 0 && Fill(blank, []) == " ";
    FillAppend(date, blank, [y, m, d], []);
    assert [y, m, d] + [] == [y, m, d];
    FillAppend(date + blank, time, [y, m, d], [h, mi, s]);
  }

  lemma RcsFields(y: string, m: string, d: string, h: string, mi: string, s: string)
    requires IsField(y) && IsField(m) && IsField(d) && IsField(h) && IsField(mi) && IsField(s)
    ensures Fields([y, m, d] + [h, mi, s])
    ensures Values([y, m, d] + [h, mi, s]) ==
      [DigitsValue(y), DigitsValue(m), DigitsValue(d)] + [DigitsValue(h), DigitsValue(mi), DigitsValue(s)]
  {
    FieldsTriple(y, m, d);
    FieldsTriple(h, mi, s);
    FieldsAppend([y, m, d], [h, mi, s]);
  }
}

=== FILE: escape.dfy ===
/**
  The two text escapers of library.c: `serialise_roff`, which writes a
  metadata value into a roff document (as a text line of its own, or inside
  a double-quoted macro argument), and the loop that writes the HTML
  `<title>`.  Both drop leading whitespace and turn every single whitespace
  character into one space, without collapsing runs.
 */
module Escape {
  import opened CText

  // serialise_roff

  /** What one character of the value becomes in roff output. */
  function RoffChar(c: char, block: bool): string {
    if c == '\\' then "\\e"
    else if !block && c == '"' then "\\(dq"
    else if IsSpace(c) then " "
    else [c]
  }

  /** The per-character loop of `serialise_roff`. */
  function RoffText(s: string, block: bool): (r: string)
    ensures '\n' !in r
    ensures '\0' !in s ==> '\0' !in r
    ensures !block ==> '"' !in r
    ensures s != [] ==> r != [] && r[0] == RoffChar(s[0], block)[0]
  {
    if s == [] then [] else RoffChar(s[0], block) + RoffText(s[1..], block)
  }

  /**
    `serialise_roff(op, v, block)`.  Block mode writes a text line: it ends
    in exactly one newline, has no other, and never starts with `.` (which
    would make it a macro line) because a leading `.` is guarded by `\&`.
    Inline mode writes the inside of a quoted argument: no `"` and no
    newline.
   */
  function SerialiseRoff(v: CString, block: bool): (r: CString)
    ensures block ==> |r| > 0 && r[|r| - 1] == '\n' && '\n' !in r[..|r| - 1]
    ensures block ==> r[0] != '.'
    ensures !block ==> '"' !in r && '\n' !in r
  {
    var t := SkipSpace(v);
    SkipSpaceSuffix(v);
    var body := RoffGuard(t, block) + RoffText(t, block);
    RoffBody(t, block);
    RoffEndAfter(body, block);
    body + RoffEnd(block)
  }

  /** The zero-width `\&` that keeps a block line starting with `.` from reading as a macro. */
  function RoffGuard(t: string, block: bool): string {
    if block && t != [] && t[0] == '.' then "\\&" else ""
  }

  /** The newline that ends a block. */
  function RoffEnd(block: bool): string {
    if block then "\n" else ""
  }

  /**
    Reading roff text back: `\e` is a backslash, `\&` is nothing and
    `\(dq` is a double quote; everything else stands for itself.
   */
  function RoffDecode(s: string): string
    decreases |s|
  {
    if s == [] then []
    else if s[0] == '\\' && |s| >= 2 && s[1] == 'e' then "\\" + RoffDecode(s[2..])
    else if s[0] == '\\' && |s| >= 2 && s[1] == '&' then RoffDecode(s[2..])
    else if s[0] == '\\' && |s| >= 4 && s[1] == '(' && s[2] == 'd' && s[3] == 'q' then
      "\"" + RoffDecode(s[4..])
    else [s[0]] + RoffDecode(s[1..])
  }

  /**
    Reading back what `serialise_roff` wrote gives the value without its
    leading whitespace, each whitespace character as one space, every other
    character in order, and the final newline in block mode.
   */
  lemma SerialiseRoffDecode(v: CString, block: bool)
    ensures RoffDecode(SerialiseRoff(v, block)) == Blanked(SkipSpace(v)) + RoffEnd(block)
  {
    var t := SkipSpace(v);
    RoffDecodeParts(RoffGuard(t, block), RoffText(t, block), RoffEnd(block));
    RoffDecodeGuard(t, block, RoffText(t, block) + RoffEnd(block));
    RoffTextDecode(t, RoffEnd(block), block);
    RoffDecodeEnd(block);
  }

  /** Serialising never depends on how much whitespace leads the value. */
  lemma SerialiseRoffLeadingSpace(v: CString, block: bool)
    requires v != [] && IsSpace(v[0])
    ensures SerialiseRoff(v, block) == SerialiseRoff(v[1..], block)
  {
  }

  /** A character the roff loop copies as it is: not a backslash, not whitespace, and not `"` inline. */
  predicate RoffPlain(c: char, block: bool) {
    c != '\\' && !IsSpace(c) && (block || c != '"')
  }

  /**
    Every character outside the escaped ones is written verbatim: a value
    whose text after the leading whitespace is plain is written unchanged
    inline, and in block mode gains only the `\&` guard before a leading
    `.` and the final newline.
   */
  lemma SerialiseRoffPlain(v: CString, block: bool)
    requires forall i :: 0 <= i < |SkipSpace(v)| ==> RoffPlain(SkipSpace(v)[i], block)
    ensures !block ==> SerialiseRoff(v, block) == SkipSpace(v)
    ensures block ==>
      SerialiseRoff(v, block) ==
        (if SkipSpace(v) != [] && SkipSpace(v)[0] == '.' then "\\&" else "") + SkipSpace(v) + "\n"
  {
    RoffTextPlain(SkipSpace(v), block);
  }

  /** The roff loop works character by character: the text of a concatenation is the concatenation of the texts. */
  lemma {:induction false} RoffTextAppend(a: string, b: string, block: bool)
    ensures RoffText(a + b, block) == RoffText(a, block) + RoffText(b, block)
  {
    if a == [] {
      assert a + b == b;
    } else {
      assert (a + b)[0] == a[0];
      assert (a + b)[1..] == a[1..] + b;
      RoffTextAppend(a[1..], b, block);
      SeqAssoc(RoffChar(a[0], block), RoffText(a[1..], block), RoffText(b, block));
    }
  }

  /**
    The escaped characters: a backslash is written `\e`, a double quote
    inside a macro argument `\(dq`, and any whitespace character exactly
    one space.
   */
  lemma RoffTextEscapes(c: char, block: bool)
    ensures c == '\\' ==> RoffText([c], block) == "\\e"
    ensures !block && c == '"' ==> RoffText([c], block) == "\\(dq"
    ensures IsSpace(c) ==> RoffText([c], block) == " "
  {
    assert [c][1..] == [];
  }

  /**
    Only `.` is guarded: a block line may start with `'`, which roff also
    reads as a control character, so the title `'sp` becomes a request.
   */
  lemma SerialiseRoffApostrophe()
    ensures SerialiseRoff("'sp", true) == "'sp\n"
  {
    SerialiseRoffPlain("'sp", true);
  }

  // The HTML title

  /** What one character of the title becomes in HTML; `&` and `"` are copied. */
  function HtmlChar(c: char): string {
    if c == '<' then "&lt;"
    else if c == '>' then "&gt;"
    else if IsSpace(c) then " "
    else [c]
  }

  function HtmlText(s: string): (r: string)
    ensures '<' !in r && '>' !in r
    ensures forall i :: 0 <= i < |r| && IsSpace(r[i]) ==> r[i] == ' '
    ensures '\0' !in s ==> '\0' !in r
    ensures s != [] ==> r != [] && r[0] == HtmlChar(s[0])[0]
    ensures |r| >= |s|
  {
    if s == [] then [] else HtmlChar(s[0]) + HtmlText(s[1..])
  }

  /**
    The title loop of `lowdown_standalone_open`: leading whitespace is
    skipped, the rest is written with `<` and `>` as entities and every
    whitespace character as a space, so trailing whitespace survives.
   */
  function EscapeHtmlTitle(title: CString): (r: CString)
    ensures '<' !in r && '>' !in r
    ensures forall i :: 0 <= i < |r| && IsSpace(r[i]) ==> r[i] == ' '
    ensures r == [] <==> SkipSpace(title) == []
    ensures r != [] ==> !IsSpace(r[0])
  {
    SkipSpaceSuffix(title);
    HtmlText(SkipSpace(title))
  }

  /** Reading HTML text back: the two entities the title loop writes, everything else as is. */
  function HtmlDecode(s: string): string
    decreases |s|
  {
    if s == [] then []
    else if s[0] == '&' && |s| >= 4 && s[1] == 'l' && s[2] == 't' && s[3] == ';' then
      "<" + HtmlDecode(s[4..])
    else if s[0] == '&' && |s| >= 4 && s[1] == 'g' && s[2] == 't' && s[3] == ';' then
      ">" + HtmlDecode(s[4..])
    else [s[0]] + HtmlDecode(s[1..])
  }

  /**
    For a title without `&`, reading back the escaped title gives the title
    without its leading whitespace and with each whitespace character as a
    space.
   */
  lemma EscapeHtmlTitleDecode(title: CString)
    requires '&' !in title
    ensures HtmlDecode(EscapeHtmlTitle(title)) == Blanked(SkipSpace(title))
  {
    var t := SkipSpace(title);
    assert '&' !in t by {
      SkipSpaceSuffix(title);
      assert forall i :: 0 <= i < |t| ==> t[i] == title[|title| - |t| + i];
    }
    HtmlTextDecode(t, []);
    assert HtmlText(t) + [] == HtmlText(t);
    assert Blanked(t) + HtmlDecode([]) == Blanked(t);
  }

  /**
    Because `&` is copied unchanged, a title that already spells an entity
    cannot be told apart from the character the entity stands for.
   */
  lemma EscapeHtmlTitleAmbiguous()
    ensures EscapeHtmlTitle("&lt;") == EscapeHtmlTitle("<")
  {
    SkipSpaceNoop("&lt;");
    SkipSpaceNoop("<");
    HtmlTextOfEntity();
  }

  // Proof helpers.

  lemma {:induction false} RoffTextPlain(t: string, block: bool)
    requires forall i :: 0 <= i < |t| ==> RoffPlain(t[i], block)
    ensures RoffText(t, block) == t
  {
    if t != [] {
      assert RoffPlain(t[0], block);
      RoffTextPlain(t[1..], block);
      assert [t[0]] + t[1..] == t;
    }
  }

  /** What the guard and the character loop write together, before any newline. */
  lemma RoffBody(t: string, block: bool)
    ensures var body := RoffGuard(t, block) + RoffText(t, block);
      '\n' !in body && ('\0' !in t ==> '\0' !in body) &&
      (!block ==> '"' !in body) &&
      (block && body != [] ==> body[0] != '.')
  {
    var g, x := RoffGuard(t, block), RoffText(t, block);
    assert '\n' !in g && '\0' !in g && '"' !in g;
    if block && g + x != [] {
      if g == [] {
        assert t != [] && RoffChar(t[0], true)[0] != '.';
        assert (g + x)[0] == x[0];
      } else {
        assert (g + x)[0] == '\\';
      }
    }
  }

  /** The block newline appended to a body without newlines. */
  lemma RoffEndAfter(body: string, block: bool)
    ensures var r := body + RoffEnd(block);
      (block ==> |r| > 0 && r[|r| - 1] == '\n' && r[..|r| - 1] == body) && (!block ==> r == body)
  {
    var r := body + RoffEnd(block);
    assert block ==> r[..|r| - 1] == body;
  }

  lemma RoffDecodeParts(g: string, x: string, e: string)
    ensures RoffDecode(g + x + e) == RoffDecode(g + (x + e))
  {
    SeqAssoc(g, x, e);
  }

  lemma RoffDecodeGuard(t: string, block: bool, rest: string)
    ensures RoffDecode(RoffGuard(t, block) + rest) == RoffDecode(rest)
  {
    var g := RoffGuard(t, block);
    if g == [] {
      assert g + rest == rest;
    } else {
      var s := g + rest;
      assert s[0] == '\\' && s[1] == '&' && s[2..] == rest;
    }
  }

  lemma RoffDecodeEnd(block: bool)
    ensures RoffDecode(RoffEnd(block)) == RoffEnd(block)
  {
    if block {
      assert RoffDecode("\n") == "\n" + RoffDecode([]);
    }
  }

  lemma RoffCharDecode(c: char, rest: string, block: bool)
    ensures RoffDecode(RoffChar(c, block) + rest) == [Blank(c)] + RoffDecode(rest)
  {
    var s := RoffChar(c, block) + rest;
    if c == '\\' {
      assert s[0] == '\\' && s[1] == 'e' && s[2..] == rest;
    } else if !block && c == '"' {
      assert s[0] == '\\' && s[1] == '(' && s[2] == 'd' && s[3] == 'q' && s[4..] == rest;
    } else {
      assert s[0] == Blank(c) && s[1..] == rest;
    }
  }

  lemma {:induction false} RoffTextDecode(s: string, rest: string, block: bool)
    ensures RoffDecode(RoffText(s, block) + rest) == Blanked(s) + RoffDecode(rest)
    decreases |s|
  {
    if s == [] {
      assert RoffText(s, block) + rest == rest;
      assert Blanked(s) + RoffDecode(rest) == RoffDecode(rest);
    } else {
      var head := RoffChar(s[0], block);
      var text := RoffText(s[1..], block);
      assert RoffText(s, block) == head + text;
      SeqAssoc(head, text, rest);
      RoffCharDecode(s[0], text + rest, block);
      RoffTextDecode(s[1..], rest, block);
      assert Blanked(s) == [Blank(s[0])] + Blanked(s[1..]);
      SeqAssoc([Blank(s[0])], Blanked(s[1..]), RoffDecode(rest));
    }
  }

  lemma HtmlCharDecode(c: char, rest: string)
    requires c != '&'
    ensures HtmlDecode(HtmlChar(c) + rest) == [Blank(c)] + HtmlDecode(rest)
  {
    var s := HtmlChar(c) + rest;
    if c == '<' {
      assert s[0] == '&' && s[1] == 'l' && s[2] == 't' && s[3] == ';' && s[4..] == rest;
    } else if c == '>' {
      assert s[0] == '&' && s[1] == 'g' && s[2] == 't' && s[3] == ';' && s[4..] == rest;
    } else {
      assert s[0] == Blank(c) && s[1..] == rest;
    }
  }

  lemma {:induction false} HtmlTextDecode(s: string, rest: string)
    requires '&' !in s
    ensures HtmlDecode(HtmlText(s) + rest) == Blanked(s) + HtmlDecode(rest)
    decreases |s|
  {
    if s == [] {
      assert HtmlText(s) + rest == rest;
      assert Blanked(s) + HtmlDecode(rest) == HtmlDecode(rest);
    } else {
      var head := HtmlChar(s[0]);
      var text := HtmlText(s[1..]);
      assert HtmlText(s) == head + text;
      SeqAssoc(head, text, rest);
      assert s[0] != '&';
      assert '&' !in s[1..];
      HtmlCharDecode(s[0], text + rest);
      HtmlTextDecode(s[1..], rest);
      assert Blanked(s) == [Blank(s[0])] + Blanked(s[1..]);
      SeqAssoc([Blank(s[0])], Blanked(s[1..]), HtmlDecode(rest));
    }
  }

  lemma HtmlTextOfEntity()
    ensures HtmlText("&lt;") == "&lt;" && HtmlText("<") == "&lt;"
  {
    var e := "&lt;";
    assert forall i :: 0 <= i < |e| ==> e[i] != '<' && e[i] != '>' && !IsSpace(e[i]);
    HtmlTextPlain(e);
    assert HtmlText("<") == "&lt;" + HtmlText([]);
  }

  /** Text with no angle bracket and no whitespace is written unchanged. */
  lemma {:induction false} HtmlTextPlain(s: string)
    requires forall i :: 0 <= i < |s| ==> s[i] != '<' && s[i] != '>' && !IsSpace(s[i])
    ensures HtmlText(s) == s
    decreases |s|
  {
    if s != [] {
      HtmlTextPlain(s[1..]);
      assert HtmlChar(s[0]) == [s[0]];
      assert [s[0]] + s[1..] == s;
    }
  }
}

=== FILE: lowdown.dfy ===
/**
  The public types of the lowdown library that library.c works with: the
  caller's options, the output types and flags, the metadata pairs the
  parser hands back, and the error codes with their messages.
 */
module Lowdown {
  import opened CText

  /** One byte of input or output. */
  newtype byte = x: int | 0 <= x < 256

  /** `enum lowdown_type`. */
  datatype OutputType = Html | Nroff | Man

  /**
    The bits of the output-flag word.  Only the smartypants bit is read by
    library.c; every other bit is handed to the renderer untouched, so it
    is kept only as an opaque number.  `OtherOutputFlag(n)` is the n-th
    bit after the smartypants bit is set aside: the numbering skips that
    bit, so no `OtherOutputFlag` spells `LOWDOWN_SMARTY` a second way.
   */
  datatype OutputFlag = Smarty | OtherOutputFlag(bit: nat)

  /**
    `struct lowdown_opts`: output type, output flags and the feature-flag
    word, which only the parser interprets.
   */
  datatype Options = Options(otype: OutputType, oflags: set<OutputFlag>, feat: nat)

  /** `struct lowdown_meta`: one key/value pair, in document order. */
  datatype Meta = Meta(key: CString, value: CString)

  /** `LOWDOWN_ERR__MAX`: the number of parser error codes. */
  const ErrCount: nat := 2

  /** The message table `errs`, indexed by `enum lowdown_err`. */
  const ErrMessages: seq<string> := [
    "space before link (CommonMark violation)",
    "bad character in metadata key (MultiMarkdown violation)"
  ]

  /**
    `lowdown_errstr`: the message of an error code.  Codes outside the
    table are undefined behaviour in C and are excluded by the
    precondition.  Every message ends with the same `" violation)"` suffix.
   */
  function ErrStr(err: nat): (r: string)
    requires err < ErrCount
    ensures |r| > 11 && r[|r| - 11..] == " violation)"
  {
    ErrMessagesShape(err);
    ErrMessages[err]
  }

  /** Different codes have different messages, so a message identifies its code. */
  lemma ErrStrInjective(a: nat, b: nat)
    requires a < ErrCount && b < ErrCount
    ensures ErrStr(a) == ErrStr(b) <==> a == b
  {
    ErrMessagesShape(a);
    ErrMessagesShape(b);
  }

  lemma ErrMessagesShape(err: nat)
    requires err < ErrCount
    ensures |ErrMessages[err]| == if err == 0 then 40 else 55
    ensures ErrMessages[err][|ErrMessages[err]| - 11..] == " violation)"
  {
    var m := ErrMessages[err];
    assert m[|m| - 11] == ' ';
  }
}

=== FILE: nullable.dfy ===
/**
  Pointers that library.c allows to be `NULL`: a value that is either
  missing or present.
 */
module Nullable {

  /** `None` is the `NULL` pointer; `Some(value)` points at `value`. */
  datatype Option<T> = None | Some(value: T)

  /** What `x ? x : fallback` reads: the value when there is one, `fallback` otherwise. */
  function ValueOr<T>(o: Option<T>, fallback: T): T {
    match o
    case Some(x) => x
    case None => fallback
  }
}

=== FILE: pipeline.dfy ===
/**
  The decisions `lowdown_buf` and `lowdown_file` take around the parser,
  the renderers and the smartypants pass: which renderer is built, what the
  parser is configured with, whether smartypants runs and which variant,
  and what a failed read returns.  The parser, the renderers and the
  smartypants filters are not part of this model; they are the functions
  held by a `Collaborators` value.
 */
module Pipeline {
  import opened Nullable
  import opened Lowdown

  /** `DEF_MAX_NESTING`: the nesting depth the parser is created with. */
  const MaxNesting: nat := 16

  /**
    The renderer `lowdown_buf` creates: the HTML renderer with its output
    flags, or the roff renderer with its output flags and whether it writes
    man rather than ms macros.
   */
  datatype Renderer =
    | HtmlRenderer(oflags: set<OutputFlag>)
    | RoffRenderer(oflags: set<OutputFlag>, man: bool)

  /** The arguments of `hdoc_new`. */
  datatype ParserConfig = ParserConfig(
    renderer: Renderer,
    opts: Option<Options>,
    feat: nat,
    maxNesting: nat,
    roffSafe: bool)

  /** What `hdoc_render` produces: the rendered bytes and the document's metadata. */
  datatype Rendered = Rendered(body: seq<byte>, meta: seq<Meta>)

  /** The parser-and-renderer run and the two smartypants filters. */
  datatype Collaborators = Collaborators(
    render: (ParserConfig, seq<byte>) -> Rendered,
    smartyHtml: seq<byte> -> seq<byte>,
    smartyRoff: seq<byte> -> seq<byte>)

  /**
    The renderer choice: HTML exactly when there are no options or they ask
    for HTML, with no output flags when there are no options; otherwise
    roff, in man mode exactly when the options ask for man.
   */
  function ChooseRenderer(opts: Option<Options>): (r: Renderer)
    ensures r.HtmlRenderer? <==> opts.None? || opts.value.otype == Html
    ensures opts.None? ==> r.oflags == {}
    ensures opts.Some? ==> r.oflags == opts.value.oflags
    ensures r.RoffRenderer? ==> (r.man <==> opts.value.otype == Man)
  {
    if opts.None? || opts.value.otype == Html then
      HtmlRenderer(if opts.None? then {} else opts.value.oflags)
    else
      RoffRenderer(opts.value.oflags, opts.value.otype == Man)
  }

  /**
    The parser configuration: the chosen renderer, the options as given,
    no feature flags without options, the default nesting depth, and
    roff-safe parsing exactly when the roff renderer was chosen.
   */
  function Configure(opts: Option<Options>): (c: ParserConfig)
    ensures c.renderer == ChooseRenderer(opts)
    ensures c.opts == opts
    ensures c.feat == if opts.None? then 0 else opts.value.feat
    ensures c.maxNesting == 16
    ensures c.roffSafe <==> c.renderer.RoffRenderer?
    ensures c.renderer.HtmlRenderer? <==> opts.None? || opts.value.otype == Html
  {
    ParserConfig(
      ChooseRenderer(opts),
      opts,
      if opts.None? then 0 else opts.value.feat,
      MaxNesting,
      opts.Some? && opts.value.otype != Html)
  }

  /** Whether the smartypants pass runs: only with options that set the smartypants bit. */
  predicate SmartyRuns(opts: Option<Options>) {
    opts.Some? && Smarty in opts.value.oflags
  }

  /**
    `lowdown_buf`: render the input with the configured parser, then, when
    smartypants is asked for, pass the rendered bytes through the filter of
    the output type.  Exactly one buffer is returned: the filtered one when
    the filter ran, the rendered one otherwise; the metadata is the
    parser's either way.
   */
  function LowdownBuf(opts: Option<Options>, data: seq<byte>, c: Collaborators): (r: Rendered)
    ensures r.meta == c.render(Configure(opts), data).meta
    ensures !SmartyRuns(opts) ==> r.body == c.render(Configure(opts), data).body
    ensures SmartyRuns(opts) && opts.value.otype == Html ==>
      r.body == c.smartyHtml(c.render(Configure(opts), data).body)
    ensures SmartyRuns(opts) && opts.value.otype != Html ==>
      r.body == c.smartyRoff(c.render(Configure(opts), data).body)
  {
    var out := c.render(Configure(opts), data);
    if SmartyRuns(opts) then
      var body := if opts.value.otype == Html then c.smartyHtml(out.body) else c.smartyRoff(out.body);
      Rendered(body, out.meta)
    else out
  }

  /**
    `lowdown_file`: a failed read gives no result at all; a successful one
    gives what `lowdown_buf` makes of the bytes read.
   */
  function LowdownFile(opts: Option<Options>, input: Option<seq<byte>>, c: Collaborators): (r: Option<Rendered>)
    ensures r.None? <==> input.None?
    ensures r.Some? ==> r.value == LowdownBuf(opts, input.value, c)
  {
    match input
    case None => None
    case Some(data) => Some(LowdownBuf(opts, data, c))
  }

  /** The options that stand in for absent ones: HTML, no output flags, no features. */
  const DefaultOptions: Options := Options(Html, {}, 0)

  /**
    Absent options configure the parser exactly as the default options do,
    except that the parser is not handed any options.
   */
  lemma ConfigureDefaults()
    ensures Configure(None) == Configure(Some(DefaultOptions)).(opts := None)
  {
  }

  /**
    The smartypants variant always matches the renderer: the HTML filter
    runs after the HTML renderer and the roff filter after the roff one.
   */
  lemma SmartyMatchesRenderer(opts: Option<Options>, data: seq<byte>, c: Collaborators)
    requires SmartyRuns(opts)
    ensures var raw := c.render(Configure(opts), data).body;
      LowdownBuf(opts, data, c).body ==
        if Configure(opts).renderer.HtmlRenderer? then c.smartyHtml(raw) else c.smartyRoff(raw)
  {
  }

  /**
    Without the smartypants bit the filters are never consulted: any two
    sets of filters give the same result.
   */
  lemma SmartyOffIgnoresFilters(opts: Option<Options>, data: seq<byte>, c: Collaborators, d: Collaborators)
    requires !SmartyRuns(opts)
    requires c.render == d.render
    ensures LowdownBuf(opts, data, c) == LowdownBuf(opts, data, d)
  {
  }
}

=== FILE: scanf.dfy ===
/**
  The fragment of `sscanf` the date normalisers use: `%u` conversions,
  ordinary characters that must match exactly, and a blank in the format
  that matches any amount of whitespace.  Signs and unsigned overflow are
  not modelled: a `%u` field is a run of decimal digits read as a `nat`.
 */
module Scanf {
  import opened CText

  datatype Directive =
    | Unsigned           // %u: skip whitespace, then read the longest run of digits
    | Literal(c: char)   // an ordinary format character
    | Whitespace         // a blank in the format

  /** Number of `%u` conversions a format asks for. */
  function Conversions(fmt: seq<Directive>): nat {
    if fmt == [] then 0
    else (if fmt[0] == Unsigned then 1 else 0) + Conversions(fmt[1..])
  }

  /** Length of the longest prefix of decimal digits. */
  function DigitRun(s: string): (n: nat)
    ensures n <= |s| && IsDigits(s[..n])
    ensures n == |s| || !IsDigit(s[n])
  {
    if s != [] && IsDigit(s[0]) then 1 + DigitRun(s[1..]) else 0
  }

  /**
    The values `sscanf(s, fmt, ...)` assigns, in order; the return value is
    their count.  Scanning stops at the first directive that fails, and
    text after the last directive is ignored.
   */
  function Scan(s: string, fmt: seq<Directive>): (r: seq<nat>)
    ensures |r| <= Conversions(fmt)
    decreases fmt
  {
    if fmt == [] then []
    else match fmt[0]
      case Unsigned =>
        var t := SkipSpace(s);
        var n := DigitRun(t);
        if n == 0 then [] else [DigitsValue(t[..n])] + Scan(t[n..], fmt[1..])
      case Literal(c) =>
        if s != [] && s[0] == c then Scan(s[1..], fmt[1..]) else []
      case Whitespace =>
        Scan(SkipSpace(s), fmt[1..])
  }

  /**
    The whitespace rules of `sscanf`: a `%u` and a format blank both skip
    any run of whitespace in front of them, however long, so extra
    whitespace there never changes what is read.
   */
  lemma ScanSkipsBlanks(w: string, s: string, fmt: seq<Directive>)
    requires AllSpace(w)
    requires fmt != [] && (fmt[0] == Unsigned || fmt[0] == Whitespace)
    ensures Scan(w + s, fmt) == Scan(s, fmt)
  {
    SkipSpacePrefix(w, s);
  }

  /** A format blank also matches no whitespace at all. */
  lemma ScanBlankMatchesNone(s: string, fmt: seq<Directive>)
    requires s == [] || !IsSpace(s[0])
    ensures Scan(s, [Whitespace] + fmt) == Scan(s, fmt)
  {
    SkipSpaceNoop(s);
    assert ([Whitespace] + fmt)[1..] == fmt;
  }

  /** A format whose fields cannot run into one another, so that Fill can be scanned back. */
  predicate Separated(fmt: seq<Directive>) {
    |fmt| <= 1 || (Follows(fmt[0], fmt[1]) && Separated(fmt[1..]))
  }

  predicate Follows(d: Directive, next: Directive) {
    match d
    case Unsigned => next != Unsigned && !(next.Literal? && IsDigit(next.c))
    case Whitespace => next != Whitespace && !(next.Literal? && IsSpace(next.c))
    case Literal(_) => true
  }

  /** A non-empty run of decimal digits, as `%u` accepts it. */
  predicate IsField(f: string) {
    |f| > 0 && IsDigits(f)
  }

  /** Every element is a field `%u` accepts. */
  predicate Fields(fields: seq<string>) {
    forall i :: 0 <= i < |fields| ==> IsField(fields[i])
  }

  /** The text a format describes, with the given digit runs in its `%u` positions and one space per blank. */
  function Fill(fmt: seq<Directive>, fields: seq<string>): string
    requires |fields| == Conversions(fmt)
    decreases fmt
  {
    if fmt == [] then []
    else match fmt[0]
      case Unsigned => fields[0] + Fill(fmt[1..], fields[1..])
      case Literal(c) => [c] + Fill(fmt[1..], fields)
      case Whitespace => " " + Fill(fmt[1..], fields)
  }

  function Values(fields: seq<string>): (r: seq<nat>)
    requires Fields(fields)
    ensures |r| == |fields|
  {
    if fields == [] then [] else [DigitsValue(fields[0])] + Values(fields[1..])
  }

  /** The digit run of a field followed by a non-digit is the field itself. */
  lemma {:induction false} DigitRunOfField(f: string, rest: string)
    requires IsDigits(f)
    requires rest == [] || !IsDigit(rest[0])
    ensures DigitRun(f + rest) == |f|
    ensures (f + rest)[..|f|] == f && (f + rest)[|f|..] == rest
  {
    if f != [] {
      assert (f + rest)[1..] == f[1..] + rest;
      DigitRunOfField(f[1..], rest);
    }
  }

  /** Filled text starts with a field digit, the literal character, or a space. */
  lemma FillHead(fmt: seq<Directive>, fields: seq<string>, tail: string)
    requires |fields| == Conversions(fmt)
    requires Fields(fields)
    requires fmt != []
    ensures Fill(fmt, fields) + tail != []
    ensures fmt[0] == Unsigned ==> IsDigit((Fill(fmt, fields) + tail)[0])
    ensures fmt[0].Literal? ==> (Fill(fmt, fields) + tail)[0] == fmt[0].c
    ensures fmt[0] == Whitespace ==> (Fill(fmt, fields) + tail)[0] == ' '
  {
    match fmt[0]
    case Unsigned =>
      assert Fill(fmt, fields) + tail == fields[0] + (Fill(fmt[1..], fields[1..]) + tail);
      assert IsDigit(fields[0][0]);
    case Literal(c) =>
    case Whitespace =>
  }

  /** A `%u` directive reads a whole field that is followed by a non-digit. */
  lemma ScanField(f: string, more: string, fmt: seq<Directive>)
    requires |f| > 0 && IsDigits(f)
    requires more == [] || !IsDigit(more[0])
    requires fmt != [] && fmt[0] == Unsigned
    ensures Scan(f + more, fmt) == [DigitsValue(f)] + Scan(more, fmt[1..])
  {
    var s := f + more;
    assert IsDigit(f[0]) && s[0] == f[0];
    SkipSpaceNoop(s);
    DigitRunOfField(f, more);
  }

  /** The step of ScanFill for a leading `%u`, given the round trip for the rest of the format. */
  lemma ScanFillUnsigned(fmt: seq<Directive>, fields: seq<string>, tail: string)
    requires Separated(fmt) && fmt != [] && fmt[0] == Unsigned
    requires |fields| == Conversions(fmt) && Fields(fields)
    requires tail == [] || !IsDigit(tail[0])
    requires Scan(Fill(fmt[1..], fields[1..]) + tail, fmt[1..]) == Values(fields[1..])
    ensures Scan(Fill(fmt, fields) + tail, fmt) == Values(fields)
  {
    var more := Fill(fmt[1..], fields[1..]) + tail;
    FillNextHead(fmt, fields, tail);
    FillUnsignedStep(fmt, fields, tail);
    ScanField(fields[0], more, fmt);
    ValuesStep(fields);
  }

  /** What follows a `%u` field in filled text does not start with a digit. */
  lemma FillNextHead(fmt: seq<Directive>, fields: seq<string>, tail: string)
    requires Separated(fmt) && fmt != [] && fmt[0] == Unsigned
    requires |fields| == Conversions(fmt) && Fields(fields)
    requires tail == [] || !IsDigit(tail[0])
    ensures var more := Fill(fmt[1..], fields[1..]) + tail; more == [] || !IsDigit(more[0])
  {
    if fmt[1..] != [] {
      assert Follows(fmt[0], fmt[1]);
      FillHead(fmt[1..], fields[1..], tail);
    }
  }

  lemma FillUnsignedStep(fmt: seq<Directive>, fields: seq<string>, tail: string)
    requires fmt != [] && fmt[0] == Unsigned && |fields| == Conversions(fmt)
    ensures Fill(fmt, fields) + tail == fields[0] + (Fill(fmt[1..], fields[1..]) + tail)
  {
    SeqAssoc(fields[0], Fill(fmt[1..], fields[1..]), tail);
  }

  lemma ValuesStep(fields: seq<string>)
    requires fields != [] && Fields(fields)
    ensures Values(fields) == [DigitsValue(fields[0])] + Values(fields[1..])
  {
  }

  /** The step of ScanFill for a leading ordinary character. */
  lemma ScanFillLiteral(fmt: seq<Directive>, fields: seq<string>, tail: string)
    requires fmt != [] && fmt[0].Literal?
    requires |fields| == Conversions(fmt) && Fields(fields)
    requires Scan(Fill(fmt[1..], fields) + tail, fmt[1..]) == Values(fields)
    ensures Scan(Fill(fmt, fields) + tail, fmt) == Values(fields)
  {
    var more := Fill(fmt[1..], fields) + tail;
    FillConsStep(fmt, fields, tail, [fmt[0].c]);
    ScanLiteral(fmt, more);
  }

  lemma FillConsStep(fmt: seq<Directive>, fields: seq<string>, tail: string, head: string)
    requires fmt != [] && fmt[0] != Unsigned && |fields| == Conversions(fmt)
    requires head == if fmt[0] == Whitespace then " " else [fmt[0].c]
    ensures Fill(fmt, fields) + tail == head + (Fill(fmt[1..], fields) + tail)
  {
    SeqAssoc(head, Fill(fmt[1..], fields), tail);
  }

  lemma ScanLiteral(fmt: seq<Directive>, more: string)
    requires fmt != [] && fmt[0].Literal?
    ensures Scan([fmt[0].c] + more, fmt) == Scan(more, fmt[1..])
  {
    assert ([fmt[0].c] + more)[1..] == more;
  }

  /** The step of ScanFill for a leading blank. */
  lemma ScanFillWhitespace(fmt: seq<Directive>, fields: seq<string>, tail: string)
    requires Separated(fmt) && |fmt| > 1 && fmt[0] == Whitespace
    requires |fields| == Conversions(fmt) && Fields(fields)
    requires Scan(Fill(fmt[1..], fields) + tail, fmt[1..]) == Values(fields)
    ensures Scan(Fill(fmt, fields) + tail, fmt) == Values(fields)
  {
    var more := Fill(fmt[1..], fields) + tail;
    FillConsStep(fmt, fields, tail, " ");
    assert Follows(fmt[0], fmt[1]);
    FillHead(fmt[1..], fields, tail);
    ScanBlank(fmt, more);
  }

  lemma ScanBlank(fmt: seq<Directive>, more: string)
    requires fmt != [] && fmt[0] == Whitespace
    requires more != [] && !IsSpace(more[0])
    ensures Scan(" " + more, fmt) == Scan(more, fmt[1..])
  {
    var s := " " + more;
    assert s[1..] == more;
    SkipSpaceNoop(more);
    assert SkipSpace(s) == more;
  }

  /**
    Round trip: scanning the text Fill builds recovers the values of its
    fields, whatever non-digit text follows.
   */
  lemma {:induction false} ScanFill(fmt: seq<Directive>, fields: seq<string>, tail: string)
    requires Separated(fmt)
    requires |fields| == Conversions(fmt)
    requires Fields(fields)
    requires tail == [] || !IsDigit(tail[0])
    ensures Scan(Fill(fmt, fields) + tail, fmt) == Values(fields)
    decreases fmt
  {
    if fmt == [] {
      return;
    }
    match fmt[0]
    case Unsigned =>
      ScanFill(fmt[1..], fields[1..], tail);
      ScanFillUnsigned(fmt, fields, tail);
    case Literal(c) =>
      ScanFill(fmt[1..], fields, tail);
      ScanFillLiteral(fmt, fields, tail);
    case Whitespace =>
      if |fmt| > 1 {
        ScanFill(fmt[1..], fields, tail);
        ScanFillWhitespace(fmt, fields, tail);
      }
  }
  lemma {:induction false} ConversionsAppend(f: seq<Directive>, g: seq<Directive>)
    ensures Conversions(f + g) == Conversions(f) + Conversions(g)
  {
    if f == [] {
      assert f + g == g;
    } else {
      assert (f + g)[0] == f[0] && (f + g)[1..] == f[1..] + g;
      ConversionsAppend(f[1..], g);
    }
  }

  lemma {:induction false} SeparatedAppend(f: seq<Directive>, g: seq<Directive>)
    requires Separated(f) && Separated(g)
    requires f != [] && g != [] ==> Follows(f[|f| - 1], g[0])
    ensures Separated(f + g)
  {
    if f == [] {
      assert f + g == g;
    } else if g == [] {
      assert f + g == f;
    } else {
      var h := f + g;
      var t := f[1..];
      assert h[1..] == t + g;
      if |f| == 1 {
        assert t + g == g;
        assert h[0] == f[0] && h[1] == g[0];
      } else {
        assert t[|t| - 1] == f[|f| - 1];
        SeparatedAppend(t, g);
        assert h[0] == f[0] && h[1] == f[1];
      }
    }
  }

  lemma {:induction false} FieldsAppend(a: seq<string>, b: seq<string>)
    requires Fields(a) && Fields(b)
    ensures Fields(a + b) && Values(a + b) == Values(a) + Values(b)
  {
    if a == [] {
      assert a + b == b;
    } else {
      assert (a + b)[0] == a[0] && (a + b)[1..] == a[1..] + b;
      FieldsAppend(a[1..], b);
    }
  }

  /** Filling a concatenated format fills each part with its own fields. */
  lemma {:induction false} FillAppend(f: seq<Directive>, g: seq<Directive>, a: seq<string>, b: seq<string>)
    requires |a| == Conversions(f) && |b| == Conversions(g)
    ensures Conversions(f + g) == |a + b|
    ensures Fill(f + g, a + b) == Fill(f, a) + Fill(g, b)
  {
    ConversionsAppend(f, g);
    if f == [] {
      assert f + g == g && a + b == b;
    } else {
      assert (f + g)[0] == f[0] && (f + g)[1..] == f[1..] + g;
      if f[0] == Unsigned {
        assert (a + b)[0] == a[0] && (a + b)[1..] == a[1..] + b;
        FillAppend(f[1..], g, a[1..], b);
      } else {
        FillAppend(f[1..], g, a, b);
      }
    }
  }
}

=== FILE: standalone.dfy ===
/**
  `lowdown_standalone_open` and `lowdown_standalone_close`: the bytes
  written before and after a rendered body to make it a complete document.
  The metadata is read by one linear scan in document order; the current
  date, which the source reads from the wall clock, is the parameter
  `today`.
 */
module Standalone {
  import opened Nullable
  import opened CText
  import opened Dates
  import opened Escape
  import opened Lowdown

  /** The three working values of the scan. */
  datatype Slots = Slots(title: CString, author: Option<CString>, date: Option<CString>)

  const DefaultTitle: CString := "Untitled article"

  /** The values before any metadata is read: the default title, no author, no date. */
  const NoMeta: Slots := Slots(DefaultTitle, None, None)

  /** The keys the scan looks at; `date` and `rcsdate` write the same slot. */
  const DateKeys: set<string> := {"date", "rcsdate"}

  predicate IsKnownKey(key: string) {
    key == "title" || key == "author" || key in DateKeys
  }

  /**
    The normalised date an entry with a date key yields (no value when it
    does not parse): `rcsdate` is read as an RCS keyword, `date` as a plain
    date.
   */
  function EntryDate(e: Meta): (r: Option<CString>)
    ensures r.Some? ==> IsDateText(r.value)
  {
    if e.key == "rcsdate" then RcsDate2Str(Some(e.value)) else Date2Str(Some(e.value))
  }

  /** One iteration of the scan: a matching key overwrites its slot unconditionally. */
  function Step(s: Slots, e: Meta): Slots {
    if e.key == "title" then s.(title := e.value)
    else if e.key == "author" then s.(author := Some(e.value))
    else if e.key in DateKeys then s.(date := EntryDate(e))
    else s
  }

  /** The slots after the scan has read every entry of `m`, in order. */
  function ScanMeta(m: seq<Meta>): (r: Slots)
    ensures r.date.Some? ==> IsDateText(r.date.value)
  {
    if m == [] then NoMeta else Step(ScanMeta(m[..|m| - 1]), m[|m| - 1])
  }

  /** Index of the last entry whose key is in `keys`, if any. */
  function LastWith(m: seq<Meta>, keys: set<string>): (r: Option<nat>)
    ensures r.Some? ==> r.value < |m| && m[r.value].key in keys
    ensures r.Some? ==> forall j :: r.value < j < |m| ==> m[j].key !in keys
    ensures r.None? ==> forall j :: 0 <= j < |m| ==> m[j].key !in keys
  {
    if m == [] then None
    else if m[|m| - 1].key in keys then Some(|m| - 1)
    else LastWith(m[..|m| - 1], keys)
  }

  /**
    Last one wins: the title is the value of the last `title` entry (the
    default when there is none), the author that of the last `author`
    entry, and the date is decided by the last entry keyed `date` or
    `rcsdate`, whichever of the two it is, even when that entry does not
    parse and an earlier one did.
   */
  lemma {:induction false} ScanMetaLastWins(m: seq<Meta>)
    ensures ScanMeta(m).title ==
      match LastWith(m, {"title"}) case None => DefaultTitle case Some(i) => m[i].value
    ensures ScanMeta(m).author ==
      match LastWith(m, {"author"}) case None => None case Some(i) => Some(m[i].value)
    ensures ScanMeta(m).date ==
      match LastWith(m, DateKeys) case None => None case Some(i) => EntryDate(m[i])
  {
    LastTitleWins(m);
    LastAuthorWins(m);
    LastDateWins(m);
  }

  /** An entry with any other key can be dropped from anywhere without changing the outcome. */
  lemma {:induction false} ScanMetaOtherKey(m: seq<Meta>, e: Meta, n: seq<Meta>)
    requires !IsKnownKey(e.key)
    ensures ScanMeta(m + [e] + n) == ScanMeta(m + n)
    decreases |n|
  {
    if n == [] {
      assert m + [e] + n == m + [e];
      assert (m + [e])[..|m|] == m;
      assert m + n == m;
    } else {
      var k := n[..|n| - 1];
      ScanMetaOtherKey(m, e, k);
      assert (m + [e] + n)[..|m + [e] + n| - 1] == m + [e] + k;
      assert (m + n)[..|m + n| - 1] == m + k;
    }
  }

  /** A later entry with a date key always replaces the date, and an unparsable one clears it. */
  lemma ScanMetaDateOverwrites(m: seq<Meta>, e: Meta)
    requires e.key in DateKeys
    ensures ScanMeta(m + [e]).date == EntryDate(e)
  {
    assert (m + [e])[..|m|] == m;
  }

  /** The date the preamble prints: the scanned one, or today's when the scan left none. */
  function ResolvedDate(m: seq<Meta>, today: CString): (r: CString)
    ensures ScanMeta(m).date.None? ==> r == today
    ensures ScanMeta(m).date.Some? ==> r == ScanMeta(m).date.value && IsDateText(r)
  {
    ValueOr(ScanMeta(m).date, today)
  }

  /** The first five lines of every HTML document, up to the `<title>` element. */
  const HtmlShellLines: seq<string> := [
    "<!DOCTYPE html>",
    "<html>",
    "<head>",
    "<meta charset=\"utf-8\">",
    "<meta name=\"viewport\" content=\"" + "width=device-width,initial-scale=1\">"
  ]

  /** Those five lines as text. */
  const HtmlShell: string := Lines(HtmlShellLines)

  /**
    The HTML preamble: the document shell, the escaped title in a `<title>`
    element of its own line, then `</head>` and the opening `<body>`.
   */
  function HtmlOpen(title: CString): (r: string)
    ensures |r| > |HtmlShell| && r[..|HtmlShell|] == HtmlShell
    ensures r[|r| - 1] == '\n'
  {
    var r := HtmlShell + Line("<title>" + EscapeHtmlTitle(title) + "</title>") + Line("</head>") + Line("<body>");
    assert r[..|HtmlShell|] == HtmlShell;
    r
  }

  /** The NROFF preamble: `.DA` with the date, `.TL` and the title, then `.AU` and the author if any. */
  function NroffOpen(date: CString, title: CString, author: Option<CString>): (r: string)
    ensures |r| > 0 && r[0] == '.' && r[|r| - 1] == '\n'
  {
    Line(".DA " + date) + Line(".TL") + SerialiseRoff(title, true) + Byline(author)
  }

  /** The author part of the NROFF preamble: `.AU` and the author, or nothing. */
  function Byline(author: Option<CString>): (r: string)
    ensures r == [] <==> author.None?
    ensures r == [] || r[|r| - 1] == '\n'
  {
    if author.Some? then Line(".AU") + SerialiseRoff(author.value, true) else ""
  }

  /** The MAN preamble: one `.TH` line with the quoted title, section 7 and the date. */
  function ManOpen(date: CString, title: CString): (r: string)
    ensures |r| > 0 && r[0] == '.' && r[|r| - 1] == '\n'
  {
    Line(ManHeader(date, title))
  }

  /** The `.TH` macro line without its newline. */
  function ManHeader(date: CString, title: CString): string {
    ".TH \"" + SerialiseRoff(title, false) + "\" 7 " + date
  }

  /**
    `lowdown_standalone_open`: scan the metadata, fall back to today's date
    when the scan left none, and write the preamble of the output type.
    Every preamble ends at a line boundary.
   */
  function StandaloneOpen(opts: Options, m: seq<Meta>, today: CString): (r: string)
    ensures |r| > 0 && r[|r| - 1] == '\n'
    ensures opts.otype == Html ==> |r| > |HtmlShell| && r[..|HtmlShell|] == HtmlShell
    ensures opts.otype != Html ==> r[0] == '.'
  {
    var slots := ScanMeta(m);
    var date := ResolvedDate(m, today);
    match opts.otype
    case Html => HtmlOpen(slots.title)
    case Nroff => NroffOpen(date, slots.title, slots.author)
    case Man => ManOpen(date, slots.title)
  }

  /** `lowdown_standalone_close`: HTML closes the body and the document; roff needs nothing. */
  function StandaloneClose(opts: Options): (r: string)
    ensures opts.otype == Html <==> r != []
    ensures r == [] || r[|r| - 1] == '\n'
  {
    match opts.otype
    case Html => Line("</body>") + Line("</html>")
    case _ => ""
  }

  /** A block-mode roff text line without its newline. */
  function RoffLine(v: CString): (r: string)
    ensures '\n' !in r && (r == [] || r[0] != '.')
  {
    var s := SerialiseRoff(v, true);
    s[..|s| - 1]
  }

  /**
    The NROFF preamble is the line `.DA <date>`, the line `.TL`, the title
    as a text line, and, exactly when there is an author, the line `.AU`
    and the author as a text line.  The title and author lines never start
    with `.`; a leading `'`, the other roff control character, is not
    guarded (see `Escape.SerialiseRoffApostrophe`).
   */
  lemma NroffOpenLines(date: CString, title: CString, author: Option<CString>)
    requires '\n' !in date
    ensures SplitLines(NroffOpen(date, title, author)) ==
      [".DA " + date, ".TL", RoffLine(title)] + AuthorLines(author)
  {
    NroffOpenIsLines(date, title, author);
    NroffHeadHasNoNewlines(date, title, author);
    SplitLinesThreeThen(".DA " + date, ".TL", RoffLine(title), AuthorLines(author));
  }

  /**
    The MAN preamble is the single line `.TH "<title>" 7 <date>`, where the
    title is an inline roff argument, so it cannot close the quotes early.
   */
  lemma ManOpenLines(date: CString, title: CString)
    requires '\n' !in date
    ensures SplitLines(ManOpen(date, title)) == [ManHeader(date, title)]
  {
    ManHeaderHasNoNewline(date, title);
    SplitLinesOne(ManHeader(date, title));
  }

  /**
    The HTML preamble is the five shell lines, the title element on a line
    of its own, `</head>` and `<body>`.
   */
  lemma HtmlOpenLines(title: CString)
    ensures SplitLines(HtmlOpen(title)) ==
      HtmlShellLines + ["<title>" + EscapeHtmlTitle(title) + "</title>", "</head>", "<body>"]
  {
    EscapedTitleHasNoNewline(title);
    HtmlShellHasNoNewlines();
    SplitLinesThenThree(HtmlShellLines, "<title>" + EscapeHtmlTitle(title) + "</title>", "</head>", "<body>");
  }

  /** The HTML postamble is the two lines `</body>` and `</html>`. */
  lemma HtmlCloseLines(opts: Options)
    requires opts.otype == Html
    ensures SplitLines(StandaloneClose(opts)) == ["</body>", "</html>"]
  {
    LinesTwo("</body>", "</html>");
    assert NoNewlines(["</body>", "</html>"]);
    SplitLinesOfLines(["</body>", "</html>"]);
  }

  /**
    The lines of the preamble `lowdown_standalone_open` writes for each
    output type, given a clock that yields one line.
   */
  lemma StandaloneOpenLines(opts: Options, m: seq<Meta>, today: CString)
    requires '\n' !in today
    ensures var slots := ScanMeta(m);
      SplitLines(StandaloneOpen(opts, m, today)) ==
      match opts.otype
      case Html =>
        HtmlShellLines + ["<title>" + EscapeHtmlTitle(slots.title) + "</title>", "</head>", "<body>"]
      case Nroff =>
        [".DA " + ResolvedDate(m, today), ".TL", RoffLine(slots.title)] + AuthorLines(slots.author)
      case Man =>
        [ManHeader(ResolvedDate(m, today), slots.title)]
  {
    var slots := ScanMeta(m);
    var date := ResolvedDate(m, today);
    DateTextHasNoNewline(slots.date, today);
    match opts.otype
    case Html => HtmlOpenLines(slots.title);
    case Nroff => NroffOpenLines(date, slots.title, slots.author);
    case Man => ManOpenLines(date, slots.title);
  }

  /** The HTML preamble reads neither the author nor any date, and never the clock. */
  lemma HtmlOpenIgnoresDate(opts: Options, m: seq<Meta>, n: seq<Meta>, today: CString, other: CString)
    requires opts.otype == Html
    requires ScanMeta(m).title == ScanMeta(n).title
    ensures StandaloneOpen(opts, m, today) == StandaloneOpen(opts, n, other)
  {
  }

  /** Two NROFF preambles with the same title and author differ exactly when their dates do. */
  lemma NroffOpenDateInjective(d1: CString, d2: CString, title: CString, author: Option<CString>)
    ensures NroffOpen(d1, title, author) == NroffOpen(d2, title, author) <==> d1 == d2
  {
    var rest := Line(".TL") + SerialiseRoff(title, true) + Byline(author);
    NroffOpenFramed(d1, title, author);
    NroffOpenFramed(d2, title, author);
    FramedInjective(".DA ", d1, d2, "\n" + rest);
  }

  /** Two MAN preambles with the same title differ exactly when their dates do. */
  lemma ManOpenDateInjective(d1: CString, d2: CString, title: CString)
    ensures ManOpen(d1, title) == ManOpen(d2, title) <==> d1 == d2
  {
    assert ManOpen(d1, title) == ".TH \"" + SerialiseRoff(title, false) + "\" 7 " + d1 + "\n";
    assert ManOpen(d2, title) == ".TH \"" + SerialiseRoff(title, false) + "\" 7 " + d2 + "\n";
    FramedInjective(".TH \"" + SerialiseRoff(title, false) + "\" 7 ", d1, d2, "\n");
  }

  /**
    A roff preamble depends on the clock exactly when the metadata leaves
    no date: with a date it is the same whatever today is, and without one
    two different days give two different preambles.
   */
  lemma RoffOpenUsesClockIffNoDate(opts: Options, m: seq<Meta>, today: CString, other: CString)
    requires opts.otype != Html
    requires '\n' !in today && '\n' !in other
    requires today != other
    ensures StandaloneOpen(opts, m, today) == StandaloneOpen(opts, m, other) <==> ScanMeta(m).date.Some?
  {
    var slots := ScanMeta(m);
    if slots.date.None? {
      NroffOpenDateInjective(today, other, slots.title, slots.author);
      ManOpenDateInjective(today, other, slots.title);
    }
  }

  /**
    Wrapping a body that ends at a line boundary: the document's lines are
    the preamble's, then the body's, then the postamble's, which for roff
    output is nothing.
   */
  lemma StandaloneWrapLines(opts: Options, m: seq<Meta>, today: CString, body: string)
    requires body == [] || body[|body| - 1] == '\n'
    ensures SplitLines(StandaloneOpen(opts, m, today) + body + StandaloneClose(opts)) ==
      SplitLines(StandaloneOpen(opts, m, today)) + SplitLines(body) + SplitLines(StandaloneClose(opts))
  {
    SplitLinesAppend3(StandaloneOpen(opts, m, today), body, StandaloneClose(opts));
  }

  // Proof helpers.

  lemma DateTextHasNoNewline(date: Option<CString>, today: CString)
    requires date.Some? ==> IsDateText(date.value)
    requires '\n' !in today
    ensures '\n' !in ValueOr(date, today)
  {
    if date.Some? {
      var d := date.value;
      assert forall i :: 0 <= i < |d| ==> d[i] != '\n';
    }
  }

  lemma EscapedTitleHasNoNewline(title: CString)
    ensures '\n' !in EscapeHtmlTitle(title)
  {
    var r := EscapeHtmlTitle(title);
    forall i | 0 <= i < |r| ensures r[i] != '\n' {
      assert IsSpace(r[i]) ==> r[i] == ' ';
    }
  }

  lemma RoffLineSplits(v: CString)
    ensures SerialiseRoff(v, true) == Line(RoffLine(v))
  {
    var s := SerialiseRoff(v, true);
    assert s == s[..|s| - 1] + "\n";
  }

  /** The lines the author adds to the NROFF preamble. */
  function AuthorLines(author: Option<CString>): seq<string> {
    match author
    case None => []
    case Some(a) => [".AU", RoffLine(a)]
  }

  lemma AuthorLinesHaveNoNewlines(author: Option<CString>)
    ensures NoNewlines(AuthorLines(author))
  {
    if author.Some? {
      var l := RoffLine(author.value);
      assert '\n' !in l;
      assert AuthorLines(author) == [".AU", l];
    }
  }

  lemma NroffOpenIsLines(date: CString, title: CString, author: Option<CString>)
    ensures NroffOpen(date, title, author) ==
      Line(".DA " + date) + Line(".TL") + Line(RoffLine(title)) + Lines(AuthorLines(author))
  {
    RoffLineSplits(title);
    BylineIsLines(author);
  }

  lemma NroffHeadHasNoNewlines(date: CString, title: CString, author: Option<CString>)
    requires '\n' !in date
    ensures '\n' !in ".DA " + date && '\n' !in ".TL" && '\n' !in RoffLine(title)
    ensures NoNewlines(AuthorLines(author))
  {
    AuthorLinesHaveNoNewlines(author);
  }

  lemma ManHeaderHasNoNewline(date: CString, title: CString)
    requires '\n' !in date
    ensures '\n' !in ManHeader(date, title)
  {
    var p, t, q := ".TH \"", SerialiseRoff(title, false), "\" 7 ";
    assert '\n' !in p && '\n' !in t && '\n' !in q;
    NoNewlineJoin(p, t);
    NoNewlineJoin(p + t, q);
    NoNewlineJoin(p + t + q, date);
  }

  lemma NroffOpenFramed(date: CString, title: CString, author: Option<CString>)
    ensures NroffOpen(date, title, author) ==
      ".DA " + date + ("\n" + (Line(".TL") + SerialiseRoff(title, true) + Byline(author)))
  {
    LineFramed(".DA " + date, Line(".TL"), SerialiseRoff(title, true), Byline(author));
  }

  /** A line followed by three pieces, regrouped as the line's text and everything after it. */
  lemma LineFramed(h: string, p: string, q: string, s: string)
    ensures Line(h) + p + q + s == h + ("\n" + (p + q + s))
  {
  }

  /** A text framed by the same head and tail determines the text. */
  lemma FramedInjective(h: string, d1: string, d2: string, t: string)
    ensures h + d1 + t == h + d2 + t <==> d1 == d2
  {
    if h + d1 + t == h + d2 + t {
      assert d1 == (h + d1 + t)[|h|..|h| + |d1|];
      assert d2 == (h + d2 + t)[|h|..|h| + |d2|];
    }
  }

  lemma HtmlShellHasNoNewlines()
    ensures NoNewlines(HtmlShellLines)
  {
    var ls := HtmlShellLines;
    assert '\n' !in ls[0] && '\n' !in ls[1] && '\n' !in ls[2];
    CharsetLineHasNoNewline();
    ViewportLineHasNoNewline();
  }

  lemma CharsetLineHasNoNewline()
    ensures '\n' !in HtmlShellLines[3]
  {
  }

  lemma ViewportLineHasNoNewline()
    ensures '\n' !in HtmlShellLines[4]
  {
    var a, b := "<meta name=\"viewport\" content=\"", "width=device-width,initial-scale=1\">";
    NoNewlineJoin(a, b);
  }

  lemma BylineIsLines(author: Option<CString>)
    ensures Byline(author) == Lines(AuthorLines(author))
  {
    if author.Some? {
      RoffLineSplits(author.value);
      LinesTwo(".AU", RoffLine(author.value));
    }
  }

  lemma {:induction false} LastTitleWins(m: seq<Meta>)
    ensures ScanMeta(m).title ==
      match LastWith(m, {"title"}) case None => DefaultTitle case Some(i) => m[i].value
    decreases |m|
  {
    if m != [] {
      var p := m[..|m| - 1];
      LastTitleWins(p);
      if m[|m| - 1].key != "title" {
        assert LastWith(m, {"title"}) == LastWith(p, {"title"});
        match LastWith(p, {"title"})
        case None =>
        case Some(i) => assert p[i] == m[i];
      }
    }
  }

  lemma {:induction false} LastAuthorWins(m: seq<Meta>)
    ensures ScanMeta(m).author ==
      match LastWith(m, {"author"}) case None => None case Some(i) => Some(m[i].value)
    decreases |m|
  {
    if m != [] {
      var p := m[..|m| - 1];
      LastAuthorWins(p);
      if m[|m| - 1].key != "author" {
        assert LastWith(m, {"author"}) == LastWith(p, {"author"});
        match LastWith(p, {"author"})
        case None =>
        case Some(i) => assert p[i] == m[i];
      }
    }
  }

  lemma {:induction false} LastDateWins(m: seq<Meta>)
    ensures ScanMeta(m).date ==
      match LastWith(m, DateKeys) case None => None case Some(i) => EntryDate(m[i])
    decreases |m|
  {
    if m != [] {
      var p, e := m[..|m| - 1], m[|m| - 1];
      LastDateWins(p);
      StepDate(ScanMeta(p), e);
      if e.key !in DateKeys {
        LastWithSkips(m, DateKeys);
      }
    }
  }

  lemma StepDate(s: Slots, e: Meta)
    ensures Step(s, e).date == if e.key in DateKeys then EntryDate(e) else s.date
  {
  }

  /** Dropping a last entry whose key is not wanted keeps the answer, which still indexes the same entry. */
  lemma LastWithSkips(m: seq<Meta>, keys: set<string>)
    requires m != [] && m[|m| - 1].key !in keys
    ensures LastWith(m, keys) == LastWith(m[..|m| - 1], keys)
    ensures LastWith(m, keys).Some? ==> m[LastWith(m, keys).value] == m[..|m| - 1][LastWith(m, keys).value]
  {
  }
}
